=== FILE: README.md ===
# Credit approval: a Dafny model of the underwriting core

This project models the decision engine of a small credit-approval service
(a Django app, `credit_app`). The model covers:

- the monthly installment (EMI) calculator;
- the credit score computed from a customer's loan history;
- the two loan endpoints, check-eligibility and create-loan. Both run the
  same staged pipeline: an affordability gate, score tiers with rate
  thresholds 12% and 16%, an approved-limit gate, then finalisation;
- the approved-limit formula used at registration;
- the "repayments left" column of the customer loan listing;
- the two bulk loaders, for customers and for historical loans.

Everything is written as pure functions over immutable values. The database
is a `Store`: a map of customers keyed by id and a sequence of loans in
table order. Money and rates are exact `real` numbers. Integer model
fields are `int`. When a decimal is written into an integer column it is
truncated toward zero (`Money.Trunc`).

Modules, in dependency order:

- `Results`: `Option`, `Result` and the two failures a view can end in.
  These are a missing customer, and the division by zero that a tenure
  of 0 causes.
- `Money`: truncation, half-up and half-to-even rounding, rounding to cents,
  and integer powers.
- `Records`: the customer and loan rows, the store, and the queries the
  views run over the loan table: a customer's loans, active sums, and ids.
- `Installment`: `calculate_emi`, plus an amortisation schedule used to
  state what the installment achieves.
- `Scoring`: `calculate_credit_score`.
- `Underwriting`: the two views, plus `Verdict`, an independent one-rule
  statement of the approval decision that both views are proved to follow.
- `Accounts`: registration and the loan listing.
- `Ingestion`: `ingest_customer_data_task` and `ingest_loan_data_task`.

Some inputs are parameters, because the code reads them from the clock or
the database:

- `today`: the current date, which also gives the score its calendar year;
- `maturity`: the end date, `today` plus `tenure` months;
- `newLoanId`: the key the database assigns to a created loan.

Behaviour worth noting:

- The EMI calculator does not guard the tenure. A tenure of 0 divides by
  zero in both branches, and the request then fails with a server error.
  Both views return `Err(DivisionByZero)` there. A negative tenure is
  computed as the code computes it, through a negative power.
- Re-running the historical loan load is not idempotent. A row's
  principal is added to its customer's debt before the bulk insert drops
  the duplicate loan, so the debt grows a second time
  (`Ingestion.ReingestionAddsDebtAgain`).
- The rounded installment does not amortise a loan to within one cent.
  The residue after `n` months is bounded by half a cent times
  `S_n = 1 + q + … + q^(n−1)` (`Installment.EmiResidual`). That bound
  grows with the term. For 100000 at 12% over 12 months the EMI of
  8884.88 ends about 1.4 cents overpaid
  (`Installment.OneYearOverpaysByMoreThanACent`).
- Create-loan's fallback rejection message is never produced, because
  every path that refuses a loan has already set a message.
- The score of an unknown customer is 0 rather than an error.

## Model

| member | source | states |
|---|---|---|
| Money.Trunc | credit_app/views.py:303-308 | an integer column keeps the integer part of a decimal, rounded toward zero, for either sign |
| Money.RoundHalfUp | credit_app/views.py:107 | the nearest integer, a tie resolved away from zero |
| Money.RoundHalfUpUnique | credit_app/views.py:107 | any integer meeting those bounds is the rounded value, so the bounds determine the result |
| Money.RoundHalfEven | credit_app/tasks.py:13 | the nearest integer; at a tie the even neighbour |
| Money.RoundingModesAgreeOffTies | credit_app/tasks.py:13 | half-up and half-even rounding pick the same integer whenever the fraction is not exactly one half |
| Money.RoundCents | credit_app/views.py:33 | a whole number of cents within half a cent of the value, a tie resolved away from zero |
| Money.RoundCentsUnique | credit_app/views.py:33 | any whole-cent value meeting those bounds is the rounded value, so the bounds determine the quantized EMI |
| Money.PowInt | credit_app/views.py:31-32 | `(1+r)^n` for any integer exponent is positive, and equals 1 exactly when `n = 0` or `1+r = 1` |
| Records.LoansOf | credit_app/views.py:43 | a customer's loans are drawn from the table and are never more than the table holds (membership: `Records.LoansOfMembers`) |
| Records.ActivePrincipal | credit_app/views.py:82-84 | the active principal is 0 when no loan is active, and not negative when no amount is |
| Records.ActiveRepayments | credit_app/views.py:152-154 | the active repayments are 0 when no loan is active, and not negative when no repayment is |
| Records.LoansOfMembers | credit_app/views.py:43 | a loan is among a customer's loans exactly when it is in the table and belongs to that customer |
| Records.LoansOfAppend | credit_app/views.py:303-313 | a newly created loan joins the end of its own customer's list and no other list |
| Records.ActiveSumsAppend | credit_app/views.py:204 | an appended loan adds its amount and its repayment to the active sums exactly when it is active |
| Records.UniqueIdsAppend | credit_app/models.py:16 | appending a loan whose id is not in the table keeps the primary key unique |
| Installment.MonthlyRate | credit_app/views.py:23 | the monthly rate as a fraction: the annual percentage divided by 12 and by 100 |
| Installment.Annuity | credit_app/views.py:31-32 | the unrounded annuity `P·r·(1+r)^n / ((1+r)^n − 1)` for a non-zero monthly rate above −100% and a non-zero term |
| Installment.Emi | credit_app/views.py:18-33 | at rate 0 the installment times the tenure gives back the principal. Otherwise it is a whole number of cents within half a cent of the annuity `P·r·q^n/(q^n−1)` with `r = rate/1200`, a tie rounded away from zero |
| Installment.AccumulatedGeometric | credit_app/views.py:31-32 | the accumulated value `S_k` of unit monthly payments satisfies `r·S_k = (1+r)^k − 1`, the denominator of the formula |
| Installment.AccumulatedAtLeastOne | credit_app/views.py:31-32 | for a rate above −100% and a term of at least one month, `S_k ≥ 1` |
| Installment.BalanceClosedForm | credit_app/views.py:31-32 | after `k` months of interest-then-payment the balance is `P·q^k − payment·S_k` |
| Installment.BalanceAtZeroRate | credit_app/views.py:20-21 | at a zero rate each month lowers the balance by exactly the payment |
| Installment.AnnuityEquation | credit_app/views.py:31-32 | the unrounded annuity `A` satisfies `A·S_n = P·q^n`, i.e. it buys exactly what the principal grows to |
| Installment.BalanceShortfall | credit_app/views.py:31-32 | paying any amount `e` for `n` months leaves `(A − e)·S_n` |
| Installment.AnnuityRepaysExactly | credit_app/views.py:31-32 | the unrounded annuity clears the loan to exactly 0 after `n` months |
| Installment.ZeroRateEmiRepaysExactly | credit_app/views.py:20-21 | at rate 0 the straight-line installment clears the loan to exactly 0 |
| Installment.NearAnnuityResidual | credit_app/views.py:31-33 | a payment within half a cent of the annuity leaves at most `0.005·S_n` of either sign |
| Installment.EmiResidual | credit_app/views.py:18-33 | the rounded EMI paid for the whole tenure leaves a residue of at most `0.005·S_n` of either sign, with `S_n ≥ 1` |
| Installment.OneYearAtTwelvePercent | credit_app/views.py:23-33 | 100000 at 12% over 12 months costs 8884.88 a month |
| Installment.OneYearOverpaysByMoreThanACent | credit_app/views.py:23-33 | paying that rounded EMI for the 12 months leaves a balance below −0.01, so the rounded installment does not repay to within a cent |
| Scoring.CountRepaidOnTimePositive | credit_app/views.py:49-51 | the count of loans with `emis_paid_on_time ≥ tenure` is positive exactly when such a loan exists |
| Scoring.CountRepaidOnTime | credit_app/views.py:49 | the number of the customer's loans with `emis_paid_on_time ≥ tenure` |
| Scoring.CountActiveIn | credit_app/views.py:65-68 | the number of the customer's active loans whose start date falls in the given calendar year |
| Scoring.TotalPrincipal | credit_app/views.py:75 | the sum of `loan_amount` over all the customer's loans, 0 when there are none |
| Scoring.OverLimit | credit_app/views.py:87 | current debt plus the active principal exceeds the approved limit |
| Scoring.OnTimePoints | credit_app/views.py:49-52 | 20 points exactly when some loan was repaid on time, else 0 |
| Scoring.HistoryPoints | credit_app/views.py:56-59 | `min(20, 5·count)`: exactly `5·count` up to four loans and 20 from four loans on |
| Scoring.ActivityPoints | credit_app/views.py:63-71 | `min(10, 2·n)` for the `n` active loans started in the current year: exactly `2·n` up to five such loans and 10 from five on |
| Scoring.VolumePoints | credit_app/views.py:75-78 | one point per whole 10000 of total principal, capped at 20, and 0 when the total is not positive |
| Scoring.SignalPoints | credit_app/views.py:46-78 | the four signals together stay within 0..70 |
| Scoring.CreditScore | credit_app/views.py:43-93 | the score lies in 0..70. It is 0 when current debt plus active principal exceeds the approved limit, and otherwise the sum of the four signals |
| Scoring.CreditScoreFor | credit_app/views.py:35-43 | an unknown customer scores 0; a known one gets `CreditScore` of their own record and their own loans; any score lies in 0..70 |
| Scoring.ScoreNonIncreasingInDebt | credit_app/views.py:82-88 | raising the current debt, all else fixed, never raises the score |
| Scoring.NoHistoryScoresZero | credit_app/views.py:46-93 | a customer without loans scores 0 |
| Underwriting.Unaffordable | credit_app/views.py:162 | the affordability gate: active EMIs plus the new EMI exceed half the monthly salary |
| Underwriting.ExceedsApprovedLimit | credit_app/views.py:206 | the limit gate: active principal plus the requested amount exceeds the approved limit |
| Underwriting.PickRate | credit_app/views.py:213 | the rate used for the installment is the corrected rate, or the requested rate when there is none or it is 0 (falsy) |
| Underwriting.EligibilityTier | credit_app/views.py:179-201 | approves exactly when `TierApproves`. An approval carries the corrected rate `ApprovedRate` (the requested rate, capped at 12 above a score of 50) and no message. A refusal carries 12 and its message in (30, 50], 16 and its message in (10, 30], and no rate with the score message at 10 or below |
| Underwriting.CheckEligibility | credit_app/views.py:139-226 | fails exactly for a missing customer or a zero tenure, and echoes the request. An unaffordable request gets the fixed refusal with installment 0. An approval carries the corrected rate `ApprovedRate(score, rate)` and the EMI at that rate, no message, and never exceeds the approved limit. A tier approval over the limit is refused with the limit message and no corrected rate. A tier refusal carries the corrected rate and message of `EligibilityTier`: 12 in (30, 50], 16 in (10, 30], none with the low-score message at 10 or below. A refusal reports installment 0 |
| Underwriting.CreateTier | credit_app/views.py:271-292 | approves exactly when `TierApproves`, at `ApprovedRate(score, rate)`, with the 12% correction message exactly when the score is above 50 and the rate above 12. A refusal keeps the requested rate and names the 12% threshold in (30, 50], the 16% one in (10, 30], and the low score at 10 or below |
| Underwriting.Book | credit_app/views.py:300-319 | an approval at the decided rate appends exactly one active loan with 0 on-time EMIs, the truncated amount, that rate and its installment, answers with its id, and sets the debt column to the truncated sum of debt and amount |
| Underwriting.CreateLoan | credit_app/views.py:239-331 | fails exactly for a missing customer or a zero tenure. An unaffordable request is refused with the database untouched. Any refusal leaves the database unchanged, with no loan id, no installment and a non-default message; a tier approval over the limit gets the limit message, and a tier refusal the message of `CreateTier` (the threshold, or the low score at 10 or below). An approval stays within the approved limit and books the loan at `ApprovedRate(score, rate)`, with the correction message exactly when the rate was capped |
| Underwriting.TierApproves | credit_app/views.py:179-199 | the tier rule both views share: above 50 always, in (30, 50] above 12%, in (10, 30] above 16%, never at 10 or below |
| Underwriting.TierApprovesMonotone | credit_app/views.py:179-199 | a higher score or a higher requested rate never turns a tier approval into a refusal |
| Underwriting.ApprovedRate | credit_app/views.py:179-195 | the rate of an approval is the requested rate or 12, never above the requested rate when capped, and the requested rate itself at scores up to 50 |
| Underwriting.Verdict | credit_app/views.py:162-209 | fails exactly for a missing customer or a zero tenure, and approves exactly when the request is affordable, its tier approves and the limit holds |
| Underwriting.EligibilityFollowsVerdict | credit_app/views.py:179-209 | the eligibility view fails exactly when `Verdict` fails, and otherwise approves exactly when `Verdict` approves |
| Underwriting.CreateFollowsVerdict | credit_app/views.py:271-298 | the create-loan view fails exactly when `Verdict` fails, and otherwise approves exactly when `Verdict` approves |
| Underwriting.ViewsAgree | credit_app/views.py:179-209 | the two views fail alike and otherwise return the same approval verdict for the same request |
| Underwriting.HighScoreCapsRate | credit_app/views.py:179-184 | above a score of 50 both views approve at `min(rate, 12)` |
| Underwriting.MidTierRateTooLow | credit_app/views.py:185-198 | in the 30–50 tier at most 12%, or the 10–30 tier at most 16%, both views refuse. Eligibility reports the corrected rate and its message; create-loan names the threshold |
| Underwriting.NoHistoryIsRefused | credit_app/views.py:258-292 | a customer without loans is refused, for affordability or for a score too low |
| Underwriting.CreateLoanKeepsIdsUnique | credit_app/views.py:303-313 | when the new loan's key is fresh, create-loan keeps the loan ids unique |
| Underwriting.ApprovalBooksTheLoan | credit_app/views.py:296-316 | booking the customer's loan after the limit gate passed raises the active principal by the stored amount and stays within the limit. Active repayments grow by the new loan's repayment. For a non-negative debt and amount the debt grows by the stored amount; for a whole amount, of either sign, by the amount itself |
| Accounts.ApprovedLimit | credit_app/views.py:107 | a multiple of 100000 within 50000 of `36·income`, a tie resolved away from zero |
| Accounts.Register | credit_app/views.py:107-117 | a new customer has debt 0, the salary column holds the income truncated toward zero for either sign, and the limit is `ApprovedLimit(income)`: a multiple of 100000 within 50000 of `36·income`, a tie resolved away from zero |
| Accounts.RepaymentsLeft | credit_app/views.py:372-375 | `tenure − emis_paid_on_time` when that is not negative, otherwise 0 |
| Accounts.CustomerLoans | credit_app/views.py:362-385 | an unknown customer is not found. Otherwise there is one entry per own loan, with its id, amount, rate, installment and `RepaymentsLeft` |
| Accounts.ListingShowsOwnLoans | credit_app/views.py:368-383 | every loan of the customer appears in the listing, and every entry is the entry of one of the customer's loans |
| Ingestion.IngestLimit | credit_app/tasks.py:13 | a multiple of 100000 within 50000 of `36·salary` |
| Ingestion.LimitFormulasAgreeOffTies | credit_app/tasks.py:13 | registration and ingestion give the same limit except at an exact tie |
| Ingestion.LimitFormulasDifferAtTies | credit_app/tasks.py:13 | at a tie they differ: a salary of 12500 gets 500000 at registration and 400000 at ingestion |
| Ingestion.IngestCustomers | credit_app/tasks.py:8-26 | stored customers are kept unchanged, and every added customer has debt 0 and a limit that is a multiple of 100000 |
| Ingestion.IngestedCustomersComeFromRows | credit_app/tasks.py:11-24 | every added customer is built from one of the rows |
| Ingestion.EveryCustomerRowAccounted | credit_app/tasks.py:25-26 | a row is dropped only on a clash: afterwards its id is stored or its phone number is in use |
| Ingestion.CustomerFromRow | credit_app/tasks.py:14-24 | the customer a spreadsheet row becomes: the row's id, names, phone and salary, the `round`-based limit and debt 0 |
| Ingestion.RowLoan | credit_app/tasks.py:49-62 | the loan a row becomes: the row's id, customer, amount, tenure, rate, repayment, on-time EMIs and dates, with the derived status |
| Ingestion.DeriveStatus | credit_app/tasks.py:41-47 | active exactly when the end date has not passed; paid exactly when it has and all EMIs were on time; default exactly otherwise |
| Ingestion.KeptRows | credit_app/tasks.py:34-72 | the kept rows are never more than the rows, all belong to known customers, and nothing is dropped when every customer is known |
| Ingestion.KeptRowsAppend | credit_app/tasks.py:34-72 | a row added at the end of the batch is kept exactly when its customer is known, and the earlier rows are filtered as before, so a skipped row never affects the others |
| Ingestion.KeptRowsSkipsUnknown | credit_app/tasks.py:70-72 | a row of an unknown customer is dropped wherever it stands in the batch |
| Ingestion.RowDebtSkipsOthers | credit_app/tasks.py:65-68 | a row of another customer adds nothing to a customer's debt wherever it stands |
| Ingestion.RowDebt | credit_app/tasks.py:65-68 | a customer with no rows gains no debt, and non-negative amounts never lower the debt |
| Ingestion.RowLoans | credit_app/tasks.py:49-62 | one loan per kept row, in order, carrying the row's fields and derived status |
| Ingestion.KeepRow | credit_app/tasks.py:35-68 | one pass for a row of a known customer keeps the customer keys, adds the row's active principal to its customer's debt, and queues its loan ahead of the rest |
| Ingestion.Normalise | credit_app/tasks.py:33-72 | no customer is added or removed. Each customer's debt grows by the principal of its own active rows. The rows of missing customers are skipped and the others become pending loans |
| Ingestion.BulkInsert | credit_app/tasks.py:74-75 | the stored loans remain as a prefix, and every appended loan comes from the batch |
| Ingestion.BulkInsertKeepsFirst | credit_app/tasks.py:74-75 | of the batch loans sharing a new id, the first is the one inserted |
| Ingestion.BulkInsertIds | credit_app/tasks.py:74-75 | afterwards the table holds exactly the stored ids and the batch's ids |
| Ingestion.BulkInsertKeepsIdsUnique | credit_app/tasks.py:74-75 | no appended loan reuses a stored id, and unique ids stay unique: duplicates are dropped, not errors |
| Ingestion.BulkInsertOfStoredIds | credit_app/tasks.py:74-75 | a batch whose ids are all stored leaves the table unchanged |
| Ingestion.IngestLoans | credit_app/tasks.py:30-76 | customers keep their keys and gain the debt of their active rows. Stored loans stay as a prefix, the ids become the stored ones plus those of the kept rows, every inserted loan is the loan of a kept row with its derived status, and uniqueness is preserved |
| Ingestion.ActiveRowsCarryDebt | credit_app/tasks.py:65-68 | a row adds its amount to its customer's debt exactly when it belongs to that customer and is active |
| Ingestion.MissingCustomerRowIsSkipped | credit_app/tasks.py:70-72 | a row of a missing customer, at any position in the batch, changes nothing: the load gives the same result without it |
| Ingestion.ReingestionKeepsLoans | credit_app/tasks.py:74-75 | a second load of the same rows leaves the loan table as the first load left it |
| Ingestion.ReingestionAddsDebtAgain | credit_app/tasks.py:65-68 | a second load of the same rows adds the active principal to each customer's debt again, so the debt grows by twice the active principal |

## Left out

- HTTP handling, request serializers, status codes and response encoding.
  The views are modelled from validated fields to decision values, and
  failures are `Result` errors.
- The ORM, `transaction.atomic`, aggregates and the debug `print` output.
  The database is an in-memory `Store`, and aggregates are recursive sums.
- Reading the spreadsheets with pandas. Rows arrive as sequences of
  records, and the command that queues the loaders is not part of this
  model.
- Decimal's 28-digit context and exponent range. Every Decimal operation
  (products, divisions and the power in the EMI formula) is exact here,
  and the overflow `**` raises for a tenure in the millions of months is
  not modelled.
- The width of the integer columns. They are unbounded `int`, so the
  range of Django's `IntegerField` in the database, and the error a save
  raises for a value outside it, are not modelled.
- The float intermediate in `round(36 * salary / 100000)`. It is rounded
  as an exact value, half to even.
- Month arithmetic for the end date. `maturity` is a parameter, and dates
  are compared as (year, month, day).
- Id assignment by the database. A created loan's id is a parameter, and
  registration takes the customer id as a parameter.
- The phone-number uniqueness error at registration. `Register` builds the
  row; the insert is not modelled.
- The loan detail view. It only copies fields and always reports an age
  of 0.
- The second `monthly_interest_rate == 0` test in the EMI calculator. It
  cannot be reached once the rate is non-zero, because rates are exact
  here.
- The order of the customer loan listing. The query sets no ordering and
  the model has none, so `Accounts.CustomerLoans` lists the loans in
  table order.
- The clock read per row in the historical loan load. The code reads the
  current date once per row; `Ingestion.Normalise` takes one `today` for
  the whole load, which differs only for a load that spans midnight.
- Underwriting.Book: the debt column becomes the truncated sum of debt
  and amount, not the debt raised by `loan_amount` itself. The column is
  an integer, so the two agree only for a whole amount.
- Underwriting.ApprovalBooksTheLoan: the debt is stated to grow by the
  truncated amount, not by `loan_amount` itself, and only for a
  non-negative debt and amount. The debt column is an integer, so the two
  agree only for whole amounts; the lemma states that case separately. A
  negative debt with a fractional amount truncates toward zero (debt −1
  plus 0.5 stores 0), so that case is not stated.
- Installment.EmiResidual: the residue is bounded by `0.005·S_n`, which
  grows with the term. It is not bounded by a cent.
- Ingestion.IngestLimit: the tie direction of Python's `round` is not
  stated in the contract. It is pinned down by
  `Ingestion.LimitFormulasDifferAtTies` and `Money.RoundHalfEven`.

=== FILE: accounts.dfy ===
/** Customer registration and the customer's loan listing. */
module Accounts {
  import opened Results
  import opened Money
  import opened Records

  /** The approved limit fixed at registration: 36 times the monthly income,
      rounded half-up to a whole 100000. */
  function ApprovedLimit(income: real): (limit: int)
    ensures limit % 100000 == 0
    ensures 0.0 <= income ==> 36.0 * income - 50000.0 < limit as real <= 36.0 * income + 50000.0
    ensures income < 0.0 ==> 36.0 * income - 50000.0 <= limit as real < 36.0 * income + 50000.0
  {
    RoundHalfUp(36.0 * income / 100000.0) * 100000
  }

  /** The customer row `RegisterCustomerView.post` creates. The income is a
      decimal; its integer column keeps the truncated value while the limit is
      computed from the exact income. */
  function Register(id: int, firstName: string, lastName: string, phone: string, income: real): (c: Customer)
    ensures c.id == id && c.firstName == firstName && c.lastName == lastName && c.phone == phone
    ensures c.debt == 0
    ensures c.limit % 100000 == 0
    ensures -50000.0 <= c.limit as real - 36.0 * income <= 50000.0
    ensures 0.0 <= income ==> c.salary as real <= income < c.salary as real + 1.0
    ensures c.salary == Trunc(income)
    ensures c.limit == ApprovedLimit(income)
  {
    Customer(id, firstName, lastName, phone, Trunc(income), ApprovedLimit(income), 0)
  }

  /** Installments still to pay: tenure less the on-time EMIs, never below 0. */
  function RepaymentsLeft(l: Loan): (n: int)
    ensures 0 <= n && l.tenure - l.onTime <= n
    ensures n == 0 || n == l.tenure - l.onTime
  {
    var left := l.tenure - l.onTime;
    if left < 0 then 0 else left
  }

  /** One entry of the customer's loan listing. */
  datatype LoanListItem = LoanListItem(loanId: int, amount: int, rate: real, installment: int, repaymentsLeft: int)

  function ListItem(l: Loan): LoanListItem
  {
    LoanListItem(l.id, l.amount, l.rate, l.repayment, RepaymentsLeft(l))
  }

  /** `ViewCustomerLoansView.get`: one entry per loan of the customer, in
      table order (the query sets no order; the model fixes table order). */
  function CustomerLoans(s: Store, cid: int): (r: Result<seq<LoanListItem>, Failure>)
    ensures r.Err? <==> cid !in s.customers
    ensures r.Err? ==> r.error == CustomerNotFound
    ensures r.Ok? ==> |r.value| == |LoansOf(s.loans, cid)|
    ensures r.Ok? ==> forall i :: 0 <= i < |r.value| ==>
      var l := LoansOf(s.loans, cid)[i];
      && r.value[i].loanId == l.id
      && r.value[i].amount == l.amount
      && r.value[i].rate == l.rate
      && r.value[i].installment == l.repayment
      && r.value[i].repaymentsLeft == RepaymentsLeft(l)
  {
    if cid !in s.customers then Err(CustomerNotFound)
    else
      var own := LoansOf(s.loans, cid);
      Ok(seq(|own|, i requires 0 <= i < |own| => ListItem(own[i])))
  }

  /** The listing shows exactly the customer's loans: every loan of the
      customer in the table has an entry, and every entry is one of them. */
  lemma ListingShowsOwnLoans(s: Store, cid: int)
    requires cid in s.customers
    ensures var r := CustomerLoans(s, cid);
            && r.Ok?
            && (forall l :: l in s.loans && l.customerId == cid ==> ListItem(l) in r.value)
            && (forall e :: e in r.value ==> exists l :: l in s.loans && l.customerId == cid && e == ListItem(l))
  {
    LoansOfMembers(s.loans, cid);
    var own := LoansOf(s.loans, cid);
    var r := CustomerLoans(s, cid).value;
    forall l | l in s.loans && l.customerId == cid
      ensures ListItem(l) in r
    {
      var i :| 0 <= i < |own| && own[i] == l;
      assert r[i] == ListItem(l);
    }
    forall e | e in r
      ensures exists l :: l in s.loans && l.customerId == cid && e == ListItem(l)
    {
      var i :| 0 <= i < |r| && r[i] == e;
      assert own[i] in own;
    }
  }
}

=== FILE: credit_score.dfy ===
/** `calculate_credit_score`: four capped signals read from a customer's
    loans, wiped out when the customer is over the approved limit. */
module Scoring {
  import opened Records

  function Min(a: int, b: int): int
  {
    if a <= b then a else b
  }

  function Max(a: int, b: int): int
  {
    if a >= b then a else b
  }

  /** A loan whose on-time EMIs reach its tenure. */
  predicate RepaidOnTime(l: Loan)
  {
    l.onTime >= l.tenure
  }

  function CountRepaidOnTime(loans: seq<Loan>): nat
  {
    if loans == [] then 0
    else (if RepaidOnTime(loans[0]) then 1 else 0) + CountRepaidOnTime(loans[1..])
  }

  lemma {:induction false} CountRepaidOnTimePositive(loans: seq<Loan>)
    ensures CountRepaidOnTime(loans) > 0
        <==> exists i :: 0 <= i < |loans| && RepaidOnTime(loans[i])
  {
    if loans != [] {
      CountRepaidOnTimePositive(loans[1..]);
      if exists i :: 0 <= i < |loans[1..]| && RepaidOnTime(loans[1..][i]) {
        var i :| 0 <= i < |loans[1..]| && RepaidOnTime(loans[1..][i]);
        assert loans[i + 1] == loans[1..][i];
      }
      if exists i :: 0 <= i < |loans| && RepaidOnTime(loans[i]) {
        var i :| 0 <= i < |loans| && RepaidOnTime(loans[i]);
        if i > 0 {
          assert loans[1..][i - 1] == loans[i];
        }
      }
    }
  }

  /** An active loan that started in the given calendar year. */
  predicate ActiveIn(l: Loan, year: int)
  {
    l.start.year == year && l.status == Active
  }

  function CountActiveIn(loans: seq<Loan>, year: int): nat
  {
    if loans == [] then 0
    else (if ActiveIn(loans[0], year) then 1 else 0) + CountActiveIn(loans[1..], year)
  }

  /** Sum of `loan_amount` over all loans, whatever their status. */
  function TotalPrincipal(loans: seq<Loan>): int
  {
    if loans == [] then 0 else loans[0].amount + TotalPrincipal(loans[1..])
  }

  /** 20 points when some loan was repaid on time, none otherwise. */
  function OnTimePoints(loans: seq<Loan>): (points: int)
    ensures points == 0 || points == 20
    ensures points == 20 <==> exists i :: 0 <= i < |loans| && RepaidOnTime(loans[i])
  {
    CountRepaidOnTimePositive(loans);
    if CountRepaidOnTime(loans) > 0 then 20 else 0
  }

  /** 5 points per loan on record, at most 20. */
  function HistoryPoints(loans: seq<Loan>): (points: int)
    ensures 0 <= points <= 20
    ensures points == 20 || points == 5 * |loans|
    ensures 4 <= |loans| ==> points == 20
    ensures |loans| <= 4 ==> points == 5 * |loans|
  {
    if |loans| > 0 then Min(20, |loans| * 5) else 0
  }

  /** 2 points per active loan started this year, at most 10. */
  function ActivityPoints(loans: seq<Loan>, year: int): (points: int)
    ensures 0 <= points <= 10
    ensures points == 10 || points == 2 * CountActiveIn(loans, year)
    ensures 5 <= CountActiveIn(loans, year) ==> points == 10
    ensures CountActiveIn(loans, year) <= 5 ==> points == 2 * CountActiveIn(loans, year)
  {
    var n := CountActiveIn(loans, year);
    if n > 0 then Min(10, n * 2) else 0
  }

  /** One point per whole 10000 of principal ever lent, at most 20; nothing
      when the total is not positive. */
  function VolumePoints(loans: seq<Loan>): (points: int)
    ensures 0 <= points <= 20
    ensures 0 < points ==> 10000 * points <= TotalPrincipal(loans)
    ensures points < 20 && 0 <= TotalPrincipal(loans) ==> TotalPrincipal(loans) < 10000 * (points + 1)
  {
    var total := TotalPrincipal(loans);
    if total > 0 then Min(20, total / 10000) else 0
  }

  /** The four signals added up; together they never pass 70. */
  function SignalPoints(loans: seq<Loan>, year: int): (points: int)
    ensures 0 <= points <= 70
  {
    OnTimePoints(loans) + HistoryPoints(loans) + ActivityPoints(loans, year) + VolumePoints(loans)
  }

  /** Current debt plus the principal of the active loans exceeds the approved limit. */
  predicate OverLimit(c: Customer, loans: seq<Loan>)
  {
    c.debt + ActivePrincipal(loans) > c.limit
  }

  /** The score of a customer from their own loans, `year` being the current
      calendar year. */
  function CreditScore(c: Customer, loans: seq<Loan>, year: int): (score: int)
    ensures 0 <= score <= 70
    ensures OverLimit(c, loans) ==> score == 0
    ensures !OverLimit(c, loans) ==> score == SignalPoints(loans, year)
  {
    var points := if OverLimit(c, loans) then 0 else SignalPoints(loans, year);
    Max(0, Min(100, points))
  }

  /** `calculate_credit_score(customer_id)`: an unknown customer scores 0. */
  function CreditScoreFor(customers: map<int, Customer>, loans: seq<Loan>, cid: int, year: int): (score: int)
    ensures 0 <= score <= 70
    ensures cid !in customers ==> score == 0
    ensures cid in customers ==> score == CreditScore(customers[cid], LoansOf(loans, cid), year)
  {
    if cid !in customers then 0
    else CreditScore(customers[cid], LoansOf(loans, cid), year)
  }

  /** Raising the current debt, everything else fixed, never raises the score. */
  lemma ScoreNonIncreasingInDebt(c: Customer, loans: seq<Loan>, year: int, debt: int)
    requires c.debt <= debt
    ensures CreditScore(c.(debt := debt), loans, year) <= CreditScore(c, loans, year)
  {
  }

  /** A customer without loans scores 0. */
  lemma NoHistoryScoresZero(c: Customer, year: int)
    ensures CreditScore(c, [], year) == 0
  {
  }
}

=== FILE: ingestion.dfy ===
/** The bulk loaders for historical data: customers with a limit derived from
    salary, and loans whose status and the customers' debt are derived while
    the rows are read. */
module Ingestion {
  import opened Money
  import opened Records
  import Accounts

  // ---------------------------------------------------------------------------
  // Customers

  /** A row of the customer sheet. */
  datatype CustomerRow = CustomerRow(id: int, firstName: string, lastName: string, phone: string, salary: int)

  /** The approved limit at ingestion: 36 times the salary, rounded with
      Python's `round` to a whole 100000. */
  function IngestLimit(salary: int): (limit: int)
    ensures limit % 100000 == 0
    ensures -50000 <= limit - 36 * salary <= 50000
  {
    var n := RoundHalfEven(36.0 * salary as real / 100000.0);
    assert (n * 100000) as real == 100000.0 * n as real;
    n * 100000
  }

  function CustomerFromRow(row: CustomerRow): Customer
  {
    Customer(row.id, row.firstName, row.lastName, row.phone, row.salary, IngestLimit(row.salary), 0)
  }

  /** Some stored customer already has this phone number (a unique column). */
  predicate PhoneInUse(customers: map<int, Customer>, phone: string)
  {
    exists k :: k in customers && customers[k].phone == phone
  }

  /** `ingest_customer_data_task`: the rows are inserted in order and a row
      whose id or phone number clashes with a stored customer is dropped, as
      `bulk_create(..., ignore_conflicts=True)` does. */
  function IngestCustomers(customers: map<int, Customer>, rows: seq<CustomerRow>): (r: map<int, Customer>)
    ensures forall k :: k in customers ==> k in r && r[k] == customers[k]
    ensures forall k :: k in r && k !in customers ==> r[k].debt == 0 && r[k].limit % 100000 == 0
    decreases |rows|
  {
    if rows == [] then customers
    else
      var c := CustomerFromRow(rows[0]);
      var next := if c.id in customers || PhoneInUse(customers, c.phone) then customers else customers[c.id := c];
      IngestCustomers(next, rows[1..])
  }

  /** Every customer the load adds is built from one of the rows. */
  lemma {:induction false} IngestedCustomersComeFromRows(customers: map<int, Customer>, rows: seq<CustomerRow>)
    ensures var r := IngestCustomers(customers, rows);
            forall k :: k in r && k !in customers ==>
              exists i :: 0 <= i < |rows| && r[k] == CustomerFromRow(rows[i])
    decreases |rows|
  {
    if rows != [] {
      var c := CustomerFromRow(rows[0]);
      var next := if c.id in customers || PhoneInUse(customers, c.phone) then customers else customers[c.id := c];
      var r := IngestCustomers(next, rows[1..]);
      assert r == IngestCustomers(customers, rows);
      IngestedCustomersComeFromRows(next, rows[1..]);
      forall k | k in r && k !in customers
        ensures exists i :: 0 <= i < |rows| && r[k] == CustomerFromRow(rows[i])
      {
        if k in next {
          assert r[k] == CustomerFromRow(rows[0]);
        } else {
          var j :| 0 <= j < |rows[1..]| && r[k] == CustomerFromRow(rows[1..][j]);
          assert rows[1..][j] == rows[j + 1];
        }
      }
    }
  }

  /** Every row ends up stored, or its phone number belongs to a stored
      customer: a row is dropped only for a clash. */
  lemma {:induction false} EveryCustomerRowAccounted(customers: map<int, Customer>, rows: seq<CustomerRow>)
    ensures var r := IngestCustomers(customers, rows);
            forall i :: 0 <= i < |rows| ==> rows[i].id in r || PhoneInUse(r, rows[i].phone)
    decreases |rows|
  {
    if rows != [] {
      var c := CustomerFromRow(rows[0]);
      var next := if c.id in customers || PhoneInUse(customers, c.phone) then customers else customers[c.id := c];
      var r := IngestCustomers(next, rows[1..]);
      assert r == IngestCustomers(customers, rows);
      EveryCustomerRowAccounted(next, rows[1..]);
      assert rows[0].id in r || PhoneInUse(r, rows[0].phone) by {
        if c.id in customers || c.id in next {
          assert c.id in r;
        } else {
          var k :| k in customers && customers[k].phone == c.phone;
          assert k in r && r[k].phone == c.phone;
        }
      }
      forall i | 1 <= i < |rows|
        ensures rows[i].id in r || PhoneInUse(r, rows[i].phone)
      {
        assert rows[i] == rows[1..][i - 1];
      }
    }
  }

  /** Registration rounds half-up and ingestion rounds half to even, so the
      two limits agree except when `36·salary/100000` lies exactly halfway
      between two integers. */
  lemma LimitFormulasAgreeOffTies(salary: int)
    requires var x := 36.0 * salary as real / 100000.0;
             x - x.Floor as real != 0.5
    ensures Accounts.ApprovedLimit(salary as real) == IngestLimit(salary)
  {
  }

  /** At a tie they differ: a salary of 12500 gives 4.5, which registration
      rounds up to a limit of 500000 and ingestion rounds to 400000. */
  lemma LimitFormulasDifferAtTies()
    ensures Accounts.ApprovedLimit(12500.0) == 500000
    ensures IngestLimit(12500) == 400000
  {
  }

  // ---------------------------------------------------------------------------
  // Loans

  /** A row of the loan sheet. */
  datatype LoanRow = LoanRow(
    customerId: int,
    loanId: int,
    amount: int,
    tenure: int,
    rate: real,
    repayment: int,
    onTime: int,
    approval: Date,
    end: Date)

  /** The status of a historical loan on `today`: active until its end date
      has passed, then paid when exactly all EMIs were on time, else default. */
  function DeriveStatus(row: LoanRow, today: Date): (st: Status)
    ensures st == Active <==> !row.end.Before(today)
    ensures st == Paid <==> row.end.Before(today) && row.onTime == row.tenure
    ensures st == Default <==> row.end.Before(today) && row.onTime != row.tenure
  {
    if row.end.Before(today) then
      if row.onTime == row.tenure then Paid else Default
    else Active
  }

  function RowLoan(row: LoanRow, today: Date): Loan
  {
    Loan(row.loanId, row.customerId, row.amount, row.tenure, row.rate, row.repayment, row.onTime,
         row.approval, row.end, DeriveStatus(row, today))
  }

  /** The rows whose customer exists. */
  function KeptRows(rows: seq<LoanRow>, known: set<int>): (kept: seq<LoanRow>)
    ensures |kept| <= |rows|
    ensures forall i :: 0 <= i < |kept| ==> kept[i].customerId in known
    ensures (forall i :: 0 <= i < |rows| ==> rows[i].customerId in known) ==> kept == rows
  {
    if rows == [] then []
    else (if rows[0].customerId in known then [rows[0]] else []) + KeptRows(rows[1..], known)
  }

  /** Filtering a longer batch: a row at the end is kept exactly when its
      customer is known, and the rows before it are filtered as before. */
  lemma {:induction false} KeptRowsAppend(rows: seq<LoanRow>, row: LoanRow, known: set<int>)
    ensures KeptRows(rows + [row], known) == KeptRows(rows, known) + (if row.customerId in known then [row] else [])
    decreases |rows|
  {
    if rows == [] {
      assert rows + [row] == [row];
      assert [row][1..] == [];
    } else {
      assert (rows + [row])[1..] == rows[1..] + [row];
      KeptRowsAppend(rows[1..], row, known);
    }
  }

  /** A row of an unknown customer is dropped wherever it stands. */
  lemma {:induction false} KeptRowsSkipsUnknown(pre: seq<LoanRow>, row: LoanRow, post: seq<LoanRow>, known: set<int>)
    requires row.customerId !in known
    ensures KeptRows(pre + [row] + post, known) == KeptRows(pre + post, known)
    decreases |pre|
  {
    if pre == [] {
      assert pre + [row] + post == [row] + post && pre + post == post;
      assert ([row] + post)[0] == row && ([row] + post)[1..] == post;
    } else {
      assert (pre + [row] + post)[1..] == pre[1..] + [row] + post;
      assert (pre + post)[1..] == pre[1..] + post;
      KeptRowsSkipsUnknown(pre[1..], row, post, known);
    }
  }

  function RowLoans(rows: seq<LoanRow>, today: Date): (loans: seq<Loan>)
    ensures |loans| == |rows|
    ensures forall i :: 0 <= i < |rows| ==> loans[i] == RowLoan(rows[i], today)
  {
    if rows == [] then [] else [RowLoan(rows[0], today)] + RowLoans(rows[1..], today)
  }

  /** The principal of the rows of customer `k` that come out active. */
  function RowDebt(rows: seq<LoanRow>, k: int, today: Date): (debt: int)
    ensures (forall i :: 0 <= i < |rows| ==> rows[i].customerId != k) ==> debt == 0
    ensures (forall i :: 0 <= i < |rows| ==> 0 <= rows[i].amount) ==> 0 <= debt
  {
    if rows == [] then 0
    else (if rows[0].customerId == k && DeriveStatus(rows[0], today) == Active then rows[0].amount else 0)
         + RowDebt(rows[1..], k, today)
  }

  /** A row of another customer adds nothing to `k`'s debt wherever it stands. */
  lemma {:induction false} RowDebtSkipsOthers(pre: seq<LoanRow>, row: LoanRow, post: seq<LoanRow>, k: int, today: Date)
    requires row.customerId != k
    ensures RowDebt(pre + [row] + post, k, today) == RowDebt(pre + post, k, today)
    decreases |pre|
  {
    if pre == [] {
      assert pre + [row] + post == [row] + post && pre + post == post;
      assert ([row] + post)[0] == row && ([row] + post)[1..] == post;
    } else {
      assert (pre + [row] + post)[1..] == pre[1..] + [row] + post;
      assert (pre + post)[1..] == pre[1..] + post;
      RowDebtSkipsOthers(pre[1..], row, post, k, today);
    }
  }

  /** The customers as the row loop leaves them, and the loans it collected
      for the bulk insert. */
  datatype Normalised = Normalised(customers: map<int, Customer>, pending: seq<Loan>)

  /** The row loop of `ingest_loan_data_task`: a row of an unknown customer is
      skipped, any other row becomes a loan with a derived status, and an
      active one adds its amount to its customer's debt at once. */
  function Normalise(customers: map<int, Customer>, rows: seq<LoanRow>, today: Date): (n: Normalised)
    ensures n.customers.Keys == customers.Keys
    ensures forall k :: k in customers ==>
      n.customers[k] == customers[k].(debt := customers[k].debt + RowDebt(rows, k, today))
    ensures n.pending == RowLoans(KeptRows(rows, customers.Keys), today)
    decreases |rows|, 1
  {
    if rows == [] then Normalised(customers, [])
    else if rows[0].customerId !in customers then
      assert KeptRows(rows, customers.Keys) == KeptRows(rows[1..], customers.Keys);
      Normalise(customers, rows[1..], today)
    else
      KeepRow(customers, rows, today)
  }

  /** One pass of the loop for a row whose customer exists: the row becomes
      a loan, an active one adds its amount to the debt, and the loop goes on
      with the remaining rows. */
  function KeepRow(customers: map<int, Customer>, rows: seq<LoanRow>, today: Date): (n: Normalised)
    requires rows != [] && rows[0].customerId in customers
    ensures n.customers.Keys == customers.Keys
    ensures forall k :: k in customers ==>
      n.customers[k] == customers[k].(debt := customers[k].debt + RowDebt(rows, k, today))
    ensures n.pending == RowLoans(KeptRows(rows, customers.Keys), today)
    decreases |rows|, 0
  {
    var row := rows[0];
    var loan := RowLoan(row, today);
    var c := customers[row.customerId];
    var next := if loan.status == Active
                then customers[row.customerId := c.(debt := c.debt + row.amount)]
                else customers;
    assert next.Keys == customers.Keys;
    var rest := Normalise(next, rows[1..], today);
    assert KeptRows(rows, customers.Keys) == [row] + KeptRows(rows[1..], next.Keys);
    Normalised(rest.customers, [loan] + rest.pending)
  }

  /** `Loan.objects.bulk_create(..., ignore_conflicts=True)`: a pending loan
      whose id is already stored (or was inserted earlier in the batch) is
      dropped; every other one is appended. */
  function BulkInsert(stored: seq<Loan>, pending: seq<Loan>): (r: seq<Loan>)
    ensures |stored| <= |r| && r[..|stored|] == stored
    ensures forall i :: |stored| <= i < |r| ==> r[i] in pending
    decreases |pending|
  {
    if pending == [] then stored
    else
      var l := pending[0];
      var r := BulkInsert(if l.id in Ids(stored) then stored else stored + [l], pending[1..]);
      assert r[..|stored|] == (stored + [l])[..|stored|] || r[..|stored|] == stored;
      r
  }

  /** After the insert the table holds exactly the stored ids and the pending ones. */
  lemma {:induction false} BulkInsertIds(stored: seq<Loan>, pending: seq<Loan>)
    ensures Ids(BulkInsert(stored, pending)) == Ids(stored) + Ids(pending)
    decreases |pending|
  {
    if pending != [] {
      IdsCons(pending);
      var l := pending[0];
      if l.id in Ids(stored) {
        BulkInsertIds(stored, pending[1..]);
      } else {
        IdsAppend(stored, l);
        BulkInsertIds(stored + [l], pending[1..]);
      }
    }
  }

  /** No appended loan reuses a stored id, and a table with unique ids keeps
      them unique. */
  lemma {:induction false} BulkInsertKeepsIdsUnique(stored: seq<Loan>, pending: seq<Loan>)
    ensures forall i :: |stored| <= i < |BulkInsert(stored, pending)| ==>
              BulkInsert(stored, pending)[i].id !in Ids(stored)
    ensures UniqueIds(stored) ==> UniqueIds(BulkInsert(stored, pending))
    decreases |pending|
  {
    if pending != [] {
      var l := pending[0];
      if l.id in Ids(stored) {
        assert BulkInsert(stored, pending) == BulkInsert(stored, pending[1..]);
        BulkInsertKeepsIdsUnique(stored, pending[1..]);
      } else {
        var r := BulkInsert(stored + [l], pending[1..]);
        assert BulkInsert(stored, pending) == r;
        IdsAppend(stored, l);
        UniqueIdsAppend(stored, l);
        BulkInsertKeepsIdsUnique(stored + [l], pending[1..]);
        forall i | |stored| <= i < |r|
          ensures r[i].id !in Ids(stored)
        {
          if i == |stored| {
            assert r[i] == (stored + [l])[i] == l;
          } else {
            assert |stored + [l]| <= i;
            assert r[i].id !in Ids(stored + [l]);
          }
        }
      }
    }
  }

  /** The first loan of each new id in the batch is the one inserted. */
  lemma {:induction false} BulkInsertKeepsFirst(stored: seq<Loan>, pending: seq<Loan>)
    ensures forall i :: 0 <= i < |pending| && pending[i].id !in Ids(stored)
                        && (forall j :: 0 <= j < i ==> pending[j].id != pending[i].id) ==>
              pending[i] in BulkInsert(stored, pending)
    decreases |pending|
  {
    if pending != [] {
      var l := pending[0];
      var stored' := if l.id in Ids(stored) then stored else stored + [l];
      var r := BulkInsert(stored', pending[1..]);
      assert BulkInsert(stored, pending) == r;
      BulkInsertKeepsFirst(stored', pending[1..]);
      if l.id !in Ids(stored) {
        IdsAppend(stored, l);
      }
      forall i | 0 <= i < |pending| && pending[i].id !in Ids(stored)
                 && (forall j :: 0 <= j < i ==> pending[j].id != pending[i].id)
        ensures pending[i] in r
      {
        if i == 0 {
          assert r[..|stored'|] == stored';
          assert r[|stored|] == stored'[|stored|] == l;
        } else {
          var rest := pending[1..];
          assert rest[i - 1] == pending[i];
          assert pending[0].id != pending[i].id;
          assert rest[i - 1].id !in Ids(stored');
          forall j | 0 <= j < i - 1
            ensures rest[j].id != rest[i - 1].id
          {
            assert rest[j] == pending[j + 1];
          }
        }
      }
    }
  }

  /** Inserting loans whose ids are all stored already changes nothing. */
  lemma {:induction false} BulkInsertOfStoredIds(stored: seq<Loan>, pending: seq<Loan>)
    requires Ids(pending) <= Ids(stored)
    ensures BulkInsert(stored, pending) == stored
    decreases |pending|
  {
    if pending != [] {
      IdsCons(pending);
      BulkInsertOfStoredIds(stored, pending[1..]);
    }
  }

  /** `ingest_loan_data_task` on the database `s`, `today` being the date it runs. */
  function IngestLoans(s: Store, rows: seq<LoanRow>, today: Date): (r: Store)
    ensures r.customers.Keys == s.customers.Keys
    ensures forall k :: k in s.customers ==>
      r.customers[k] == s.customers[k].(debt := s.customers[k].debt + RowDebt(rows, k, today))
    ensures |s.loans| <= |r.loans| && r.loans[..|s.loans|] == s.loans
    ensures Ids(r.loans) == Ids(s.loans) + Ids(RowLoans(KeptRows(rows, s.customers.Keys), today))
    ensures UniqueIds(s.loans) ==> UniqueIds(r.loans)
    ensures forall i :: |s.loans| <= i < |r.loans| ==> r.loans[i] in RowLoans(KeptRows(rows, s.customers.Keys), today)
  {
    var n := Normalise(s.customers, rows, today);
    BulkInsertIds(s.loans, n.pending);
    BulkInsertKeepsIdsUnique(s.loans, n.pending);
    Store(n.customers, BulkInsert(s.loans, n.pending))
  }

  /** Only the active rows move a customer's debt, each by its amount. */
  lemma {:induction false} ActiveRowsCarryDebt(row: LoanRow, rows: seq<LoanRow>, k: int, today: Date)
    ensures RowDebt([row] + rows, k, today)
         == RowDebt(rows, k, today) + (if row.customerId == k && !row.end.Before(today) then row.amount else 0)
  {
  }

  /** A row whose customer is missing leaves no trace, wherever it stands in
      the batch: the load gives what the other rows give alone. */
  lemma MissingCustomerRowIsSkipped(s: Store, pre: seq<LoanRow>, row: LoanRow, post: seq<LoanRow>, today: Date)
    requires row.customerId !in s.customers
    ensures IngestLoans(s, pre + [row] + post, today) == IngestLoans(s, pre + post, today)
  {
    var a := Normalise(s.customers, pre + [row] + post, today);
    var b := Normalise(s.customers, pre + post, today);
    KeptRowsSkipsUnknown(pre, row, post, s.customers.Keys);
    assert a.pending == b.pending;
    forall k | k in s.customers
      ensures a.customers[k] == b.customers[k]
    {
      RowDebtSkipsOthers(pre, row, post, k, today);
    }
    assert a.customers == b.customers;
  }

  /** Ingesting the same rows a second time leaves the loan table as after
      the first run: every id is then a duplicate. */
  lemma ReingestionKeepsLoans(s: Store, rows: seq<LoanRow>, today: Date)
    ensures var once := IngestLoans(s, rows, today);
            IngestLoans(once, rows, today).loans == once.loans
  {
    var once := IngestLoans(s, rows, today);
    BulkInsertOfStoredIds(once.loans, Normalise(once.customers, rows, today).pending);
  }

  /** Ingesting the same rows a second time adds the active rows' principal
      to the debts again: re-ingestion is not idempotent. */
  lemma ReingestionAddsDebtAgain(s: Store, rows: seq<LoanRow>, today: Date)
    ensures var twice := IngestLoans(IngestLoans(s, rows, today), rows, today);
            && twice.customers.Keys == s.customers.Keys
            && forall k :: k in s.customers ==>
                 twice.customers[k].debt == s.customers[k].debt + 2 * RowDebt(rows, k, today)
  {
  }
}

=== FILE: installment.dfy ===
/** The monthly installment (EMI) of a loan and the amortisation it performs. */
module Installment {
  import opened Money

  /** The monthly rate for an annual percentage: `(rate / 12) / 100`. */
  function MonthlyRate(annualRate: real): real
  {
    annualRate / 1200.0
  }

  /** The exact annuity payment `P·r·q / (q − 1)` for the compounded factor
      `q = (1+r)^n` of a term. */
  function AnnuityFor(principal: real, r: real, q: real): real
    requires q != 1.0
  {
    principal * r * q / (q - 1.0)
  }

  /** The exact annuity payment `P·r·(1+r)^n / ((1+r)^n − 1)`. */
  function Annuity(principal: real, r: real, n: int): real
    requires -1.0 < r && r != 0.0 && n != 0
  {
    AnnuityFor(principal, r, PowInt(1.0 + r, n))
  }

  /** `calculate_emi`: straight-line division at a zero rate, otherwise the
      annuity payment rounded half-up to a whole cent. The code divides by the
      tenure (or by `(1+r)^0 − 1`) without a guard, so a tenure of 0 is outside
      its domain; a negative tenure is computed through a negative power. */
  function Emi(principal: real, annualRate: real, tenure: int): (emi: real)
    requires tenure != 0
    requires -1200.0 < annualRate
    ensures annualRate == 0.0 ==> emi * tenure as real == principal
    ensures annualRate != 0.0 ==> IsCents(emi)
    ensures annualRate != 0.0 ==>
      -0.005 <= emi - Annuity(principal, MonthlyRate(annualRate), tenure) <= 0.005
    ensures annualRate != 0.0 && 0.0 <= Annuity(principal, MonthlyRate(annualRate), tenure) ==>
      Annuity(principal, MonthlyRate(annualRate), tenure) - 0.005 < emi
    ensures annualRate != 0.0 && Annuity(principal, MonthlyRate(annualRate), tenure) < 0.0 ==>
      emi < Annuity(principal, MonthlyRate(annualRate), tenure) + 0.005
  {
    if annualRate == 0.0 then principal / tenure as real
    else RoundCents(Annuity(principal, MonthlyRate(annualRate), tenure))
  }

  /** The outstanding balance after `k` months of paying `payment`, interest
      accruing at the monthly rate `r` before each payment. */
  function Balance(principal: real, r: real, payment: real, k: nat): real
  {
    if k == 0 then principal
    else Balance(principal, r, payment, k - 1) * (1.0 + r) - payment
  }

  /** What a payment of 1 at the end of each of `k` months has grown to:
      `1 + q + … + q^(k−1)` with `q = 1 + r`. */
  function Accumulated(r: real, k: nat): real
  {
    if k == 0 then 0.0 else Accumulated(r, k - 1) * (1.0 + r) + 1.0
  }

  /** `r·s = q − 1`: how a geometric sum `s` relates to the power `q` it
      sums up to. */
  predicate Geometric(r: real, s: real, q: real)
  {
    r * s == q - 1.0
  }

  /** The geometric sum in closed form: `r·S_k = q^k − 1`. */
  lemma {:induction false} AccumulatedGeometric(r: real, k: nat)
    ensures Geometric(r, Accumulated(r, k), Pow(1.0 + r, k))
  {
    if k > 0 {
      AccumulatedGeometric(r, k - 1);
      GeometricStep(r, Accumulated(r, k - 1), Pow(1.0 + r, k - 1));
    }
  }

  lemma GeometricStep(r: real, s: real, q: real)
    requires Geometric(r, s, q)
    ensures Geometric(r, s * (1.0 + r) + 1.0, (1.0 + r) * q)
  {
  }

  /** For a rate above −100% every month adds a positive amount, so after at
      least one month the sum is at least the last payment of 1. */
  lemma {:induction false} AccumulatedAtLeastOne(r: real, k: nat)
    requires -1.0 < r && 1 <= k
    ensures 1.0 <= Accumulated(r, k)
  {
    if k > 1 {
      AccumulatedAtLeastOne(r, k - 1);
      NonNegativeProduct(Accumulated(r, k - 1), 1.0 + r);
    }
  }

  /** `b = P·q − e·s`: the balance `b` left from principal `P` compounded to
      `P·q` after payments `e` compounded to `e·s`. */
  predicate ClosedForm(p: real, q: real, e: real, s: real, b: real)
  {
    b == p * q - e * s
  }

  /** The balance in closed form: `B_k = P·q^k − payment·S_k`. */
  lemma {:induction false} BalanceClosedForm(principal: real, r: real, payment: real, k: nat)
    ensures ClosedForm(principal, Pow(1.0 + r, k), payment, Accumulated(r, k), Balance(principal, r, payment, k))
  {
    if k > 0 {
      BalanceClosedForm(principal, r, payment, k - 1);
      BalanceStep(principal, r, payment, Pow(1.0 + r, k - 1), Accumulated(r, k - 1), Balance(principal, r, payment, k - 1));
    }
  }

  lemma BalanceStep(p: real, r: real, e: real, q: real, s: real, b: real)
    requires ClosedForm(p, q, e, s, b)
    ensures ClosedForm(p, (1.0 + r) * q, e, s * (1.0 + r) + 1.0, b * (1.0 + r) - e)
  {
  }

  /** At a zero rate the balance falls by the payment every month. */
  lemma {:induction false} BalanceAtZeroRate(principal: real, payment: real, k: nat)
    ensures Balance(principal, 0.0, payment, k) == principal - k as real * payment
  {
    if k > 0 {
      BalanceAtZeroRate(principal, payment, k - 1);
    }
  }

  /** The exact annuity payment `A` buys, over `n` months, exactly what the
      principal grows to: `A·S_n = P·q^n`. */
  lemma AnnuityEquation(principal: real, r: real, n: nat)
    requires -1.0 < r && r != 0.0 && 1 <= n
    ensures Annuity(principal, r, n) * Accumulated(r, n) == principal * Pow(1.0 + r, n)
  {
    var q := Pow(1.0 + r, n);
    assert PowInt(1.0 + r, n) == q;
    AccumulatedGeometric(r, n);
    AnnuitySolves(principal, r, q, Accumulated(r, n));
  }

  lemma AnnuitySolves(p: real, r: real, q: real, s: real)
    requires r != 0.0 && q != 1.0 && Geometric(r, s, q)
    ensures AnnuityFor(p, r, q) * s == p * q
  {
  }

  /** The balance left by any payment `e` is `(A − e)·S_n`, where `A` is the
      exact annuity payment. */
  lemma BalanceShortfall(principal: real, r: real, e: real, n: nat)
    requires -1.0 < r && r != 0.0 && 1 <= n
    ensures Balance(principal, r, e, n) == (Annuity(principal, r, n) - e) * Accumulated(r, n)
  {
    BalanceClosedForm(principal, r, e, n);
    AnnuityEquation(principal, r, n);
    ShortfallAlgebra(principal, Pow(1.0 + r, n), Annuity(principal, r, n), e, Accumulated(r, n), Balance(principal, r, e, n));
  }

  lemma ShortfallAlgebra(p: real, q: real, a: real, e: real, s: real, b: real)
    requires ClosedForm(p, q, e, s, b) && a * s == p * q
    ensures b == (a - e) * s
  {
  }

  /** The exact annuity payment clears the loan in exactly `n` months. */
  lemma AnnuityRepaysExactly(principal: real, r: real, n: nat)
    requires -1.0 < r && r != 0.0 && 1 <= n
    ensures Balance(principal, r, Annuity(principal, r, n), n) == 0.0
  {
    BalanceShortfall(principal, r, Annuity(principal, r, n), n);
  }

  /** At a zero rate the straight-line installment clears the loan in exactly
      `tenure` months. */
  lemma ZeroRateEmiRepaysExactly(principal: real, tenure: nat)
    requires 1 <= tenure
    ensures Balance(principal, 0.0, Emi(principal, 0.0, tenure), tenure) == 0.0
  {
    BalanceAtZeroRate(principal, Emi(principal, 0.0, tenure), tenure);
  }

  /** A difference of at most half a cent, scaled by a positive factor. */
  lemma ScaledHalfCent(d: real, g: real, b: real)
    requires -0.005 <= d <= 0.005 && 0.0 < g && b == d * g
    ensures -0.005 * g <= b <= 0.005 * g
  {
    NonNegativeProduct(0.005 - d, g);
    NonNegativeProduct(d + 0.005, g);
  }

  lemma NonNegativeProduct(x: real, y: real)
    requires 0.0 <= x && 0.0 <= y
    ensures 0.0 <= x * y
  {
  }

  /** A payment within half a cent of the exact annuity payment leaves at
      most half a cent for every unit that a payment of 1 a month grows to. */
  lemma NearAnnuityResidual(principal: real, r: real, e: real, n: nat)
    requires -1.0 < r && r != 0.0 && 1 <= n
    requires -0.005 <= Annuity(principal, r, n) - e <= 0.005
    ensures 1.0 <= Accumulated(r, n)
    ensures -0.005 * Accumulated(r, n) <= Balance(principal, r, e, n) <= 0.005 * Accumulated(r, n)
  {
    AccumulatedAtLeastOne(r, n);
    BalanceShortfall(principal, r, e, n);
    ScaledHalfCent(Annuity(principal, r, n) - e, Accumulated(r, n), Balance(principal, r, e, n));
  }

  /** After `n` months of paying the rounded installment, what is left (owed
      or overpaid) is at most half a cent for every unit that a payment of 1
      a month grows to over the term, `S_n = (q^n − 1)/r ≥ 1`. The residue
      therefore grows with the term and is not bounded by one cent. */
  lemma EmiResidual(principal: real, annualRate: real, n: nat)
    requires -1200.0 < annualRate && annualRate != 0.0 && 1 <= n
    ensures var r := MonthlyRate(annualRate);
            var b := Balance(principal, r, Emi(principal, annualRate, n), n);
            1.0 <= Accumulated(r, n) && -0.005 * Accumulated(r, n) <= b <= 0.005 * Accumulated(r, n)
  {
    NearAnnuityResidual(principal, MonthlyRate(annualRate), Emi(principal, annualRate, n), n);
  }

  /** `1.01^12`, the growth factor of a year at 12% a year. */
  lemma TwelveMonthsAtOnePercent()
    ensures Pow(1.01, 12) == 1.126825030131969720661201
  {
    assert Pow(1.01, 1) == 1.01;
    assert Pow(1.01, 2) == 1.0201;
    assert Pow(1.01, 3) == 1.030301;
    assert Pow(1.01, 4) == 1.04060401;
    assert Pow(1.01, 5) == 1.0510100501;
    assert Pow(1.01, 6) == 1.061520150601;
    assert Pow(1.01, 7) == 1.07213535210701;
    assert Pow(1.01, 8) == 1.0828567056280801;
    assert Pow(1.01, 9) == 1.093685272684360901;
    assert Pow(1.01, 10) == 1.10462212541120451001;
    assert Pow(1.01, 11) == 1.1156683466653165551101;
  }

  /** A loan of 100000 at 12% a year over 12 months costs 8884.88 a month. */
  lemma OneYearAtTwelvePercent()
    ensures Emi(100000.0, 12.0, 12) == 8884.88
  {
    var q := Pow(1.01, 12);
    TwelveMonthsAtOnePercent();
    var a := Annuity(100000.0, 0.01, 12);
    assert MonthlyRate(12.0) == 0.01;
    assert a * (q - 1.0) == 1000.0 * q by {
      assert PowInt(1.01, 12) == q;
    }
    assert 888487.5 <= 100.0 * a < 888488.5;
    assert RoundHalfUp(100.0 * a) == 888488;
  }

  /** The rounded installment does not repay to within a cent: 100000 at 12%
      over 12 months, paid at 8884.88, ends about 1.4 cents overpaid. */
  lemma OneYearOverpaysByMoreThanACent()
    ensures Balance(100000.0, MonthlyRate(12.0), Emi(100000.0, 12.0, 12), 12) < -0.01
  {
    OneYearAtTwelvePercent();
    assert MonthlyRate(12.0) == 0.01;
    TwelveMonthsAtOnePercent();
    AccumulatedGeometric(0.01, 12);
    var s := Accumulated(0.01, 12);
    assert s == 12.6825030131969720661201;
    BalanceClosedForm(100000.0, 0.01, 8884.88, 12);
    assert Balance(100000.0, 0.01, 8884.88, 12) == 100000.0 * 1.126825030131969720661201 - 8884.88 * s;
  }
}

=== FILE: money.dfy ===
/** Exact decimal arithmetic helpers: truncation into integer columns,
    the two rounding modes the code uses, cents, and integer powers. */
module Money {

  /** `int(x)` on a decimal, which is also how an integer model field stores a
      decimal value: the fraction is dropped, rounding toward zero. */
  function Trunc(x: real): (n: int)
    ensures 0.0 <= x ==> n as real <= x < n as real + 1.0
    ensures x < 0.0 ==> n as real - 1.0 < x <= n as real
  {
    if x >= 0.0 then x.Floor else -((-x).Floor)
  }

  /** `quantize(Decimal('1'), rounding=ROUND_HALF_UP)`: the nearest integer,
      a tie going away from zero. */
  function RoundHalfUp(x: real): (n: int)
    ensures 0.0 <= x ==> x - 0.5 < n as real <= x + 0.5
    ensures x < 0.0 ==> x - 0.5 <= n as real < x + 0.5
  {
    if x >= 0.0 then (x + 0.5).Floor else -((-x + 0.5).Floor)
  }

  /** Python's built-in `round` on an exact value: the nearest integer, a tie
      going to the even neighbour. */
  function RoundHalfEven(x: real): (n: int)
    ensures x - 0.5 <= n as real <= x + 0.5
    ensures n as real - x == 0.5 || x - n as real == 0.5 ==> n % 2 == 0
  {
    var f := x.Floor;
    var frac := x - f as real;
    if frac < 0.5 then f
    else if frac > 0.5 then f + 1
    else if f % 2 == 0 then f
    else f + 1
  }

  /** Away from a tie the two rounding modes pick the same integer. */
  lemma RoundingModesAgreeOffTies(x: real)
    requires x - x.Floor as real != 0.5
    ensures RoundHalfUp(x) == RoundHalfEven(x)
  {
  }

  /** A whole number of hundredths. */
  predicate IsCents(x: real)
  {
    (100.0 * x).Floor as real == 100.0 * x
  }

  /** `quantize(Decimal('0.01'), rounding=ROUND_HALF_UP)`. */
  function RoundCents(x: real): (c: real)
    ensures IsCents(c)
    ensures -0.005 <= c - x <= 0.005
    ensures 0.0 <= x ==> x - 0.005 < c
    ensures x < 0.0 ==> c < x + 0.005
  {
    var k := RoundHalfUp(100.0 * x);
    assert 100.0 * (k as real / 100.0) == k as real;
    k as real / 100.0
  }

  /** The contract of `RoundHalfUp` pins its result down: the integer within
      one half of `x`, on the side a tie goes to, is the rounded value. */
  lemma RoundHalfUpUnique(x: real, n: int)
    requires 0.0 <= x ==> x - 0.5 < n as real <= x + 0.5
    requires x < 0.0 ==> x - 0.5 <= n as real < x + 0.5
    ensures n == RoundHalfUp(x)
  {
    var k := RoundHalfUp(x);
    assert -1 < n - k < 1;
  }

  /** The contract of `RoundCents` pins its result down: a whole number of
      cents within half a cent of `x`, on the side a half-up tie picks, is
      the rounded value. */
  lemma RoundCentsUnique(x: real, c: real)
    requires IsCents(c)
    requires 0.0 <= x ==> x - 0.005 < c <= x + 0.005
    requires x < 0.0 ==> x - 0.005 <= c < x + 0.005
    ensures c == RoundCents(x)
  {
    var m := (100.0 * c).Floor;
    assert m as real == 100.0 * c;
    RoundHalfUpUnique(100.0 * x, m);
    assert 100.0 * RoundCents(x) == m as real;
  }

  /** `b ** n` for a natural exponent. */
  function Pow(b: real, n: nat): real
  {
    if n == 0 then 1.0 else b * Pow(b, n - 1)
  }

  lemma {:induction false} PowPositive(b: real, n: nat)
    requires 0.0 < b
    ensures 0.0 < Pow(b, n)
  {
    if n > 0 {
      PowPositive(b, n - 1);
      assert b * Pow(b, n - 1) > 0.0;
    }
  }

  lemma {:induction false} PowOfOne(n: nat)
    ensures Pow(1.0, n) == 1.0
  {
    if n > 0 {
      PowOfOne(n - 1);
    }
  }

  lemma {:induction false} PowAboveOne(b: real, n: nat)
    requires 1.0 < b && 1 <= n
    ensures 1.0 < Pow(b, n)
  {
    if n > 1 {
      PowAboveOne(b, n - 1);
      var p := Pow(b, n - 1);
      assert (b - 1.0) * p > 0.0;
    }
  }

  lemma {:induction false} PowBelowOne(b: real, n: nat)
    requires 0.0 < b < 1.0 && 1 <= n
    ensures Pow(b, n) < 1.0
  {
    if n > 1 {
      PowBelowOne(b, n - 1);
      PowPositive(b, n - 1);
      var p := Pow(b, n - 1);
      assert (1.0 - b) * p > 0.0;
    }
  }

  /** For a positive base, a power is 1 exactly when the base is 1 or the
      exponent is 0. */
  lemma PowIsOne(b: real, n: nat)
    requires 0.0 < b
    ensures Pow(b, n) == 1.0 <==> n == 0 || b == 1.0
  {
    if b == 1.0 {
      PowOfOne(n);
    } else if n > 0 && b > 1.0 {
      PowAboveOne(b, n);
    } else if n > 0 {
      PowBelowOne(b, n);
    }
  }

  /** `b ** n` for any integer exponent, as decimal power computes it:
      a negative exponent gives the reciprocal. */
  function PowInt(b: real, n: int): (p: real)
    requires 0.0 < b
    ensures 0.0 < p
    ensures p == 1.0 <==> n == 0 || b == 1.0
  {
    if n >= 0 then
      PowPositive(b, n);
      PowIsOne(b, n);
      Pow(b, n)
    else
      PowPositive(b, -n);
      PowIsOne(b, -n);
      var d := Pow(b, -n);
      assert 1.0 / d == 1.0 ==> d == 1.0 by {
        if 1.0 / d == 1.0 {
          assert d * (1.0 / d) == 1.0;
        }
      }
      1.0 / d
  }
}

=== FILE: records.dfy ===
/** The persisted records of the credit app (a customer and a loan) and the
    queries the views and the score run over the loan table. The database is
    an in-memory value: customers keyed by id, loans as a sequence. */
module Records {

  /** A calendar date, ordered by year, then month, then day. */
  datatype Date = Date(year: int, month: int, day: int) {
    predicate Before(other: Date)
    {
      || year < other.year
      || (year == other.year && month < other.month)
      || (year == other.year && month == other.month && day < other.day)
    }
  }

  /** The three values the code ever writes into `loan_status`. */
  datatype Status = Active | Paid | Default

  /** A customer row; money is held in integer columns. */
  datatype Customer = Customer(
    id: int,
    firstName: string,
    lastName: string,
    phone: string,
    salary: int,
    limit: int,
    debt: int)

  /** A loan row; `rate` is a percentage with two decimals, every money field
      an integer column. */
  datatype Loan = Loan(
    id: int,
    customerId: int,
    amount: int,
    tenure: int,
    rate: real,
    repayment: int,
    onTime: int,
    start: Date,
    end: Date,
    status: Status)

  /** The database as the views see it. */
  datatype Store = Store(customers: map<int, Customer>, loans: seq<Loan>)

  /** `Loan.objects.filter(customer=...)`: the loans of one customer, in table order. */
  function LoansOf(loans: seq<Loan>, cid: int): (own: seq<Loan>)
    ensures |own| <= |loans|
  {
    if loans == [] then []
    else (if loans[0].customerId == cid then [loans[0]] else []) + LoansOf(loans[1..], cid)
  }

  /** A loan is among a customer's loans exactly when it is in the table and
      belongs to that customer. */
  lemma {:induction false} LoansOfMembers(loans: seq<Loan>, cid: int)
    ensures forall l :: l in LoansOf(loans, cid) <==> l in loans && l.customerId == cid
  {
    if loans != [] {
      LoansOfMembers(loans[1..], cid);
      assert loans == [loans[0]] + loans[1..];
    }
  }

  /** Appending a loan to the table appends it to its owner's loans only. */
  lemma {:induction false} LoansOfAppend(loans: seq<Loan>, l: Loan, cid: int)
    ensures LoansOf(loans + [l], cid)
         == LoansOf(loans, cid) + (if l.customerId == cid then [l] else [])
  {
    var tail := if l.customerId == cid then [l] else [];
    if loans == [] {
      assert loans + [l] == [l];
      assert [l][1..] == [];
    } else {
      var head := if loans[0].customerId == cid then [loans[0]] else [];
      var rest := loans[1..];
      assert (loans + [l])[0] == loans[0];
      assert (loans + [l])[1..] == rest + [l];
      LoansOfAppend(rest, l, cid);
      calc {
        LoansOf(loans + [l], cid);
        head + LoansOf(rest + [l], cid);
        head + (LoansOf(rest, cid) + tail);
        (head + LoansOf(rest, cid)) + tail;
        LoansOf(loans, cid) + tail;
      }
    }
  }

  /** Sum of `loan_amount` over the active loans. */
  function ActivePrincipal(loans: seq<Loan>): (total: int)
    ensures (forall i :: 0 <= i < |loans| ==> loans[i].status != Active) ==> total == 0
    ensures (forall i :: 0 <= i < |loans| ==> 0 <= loans[i].amount) ==> 0 <= total
  {
    if loans == [] then 0
    else (if loans[0].status == Active then loans[0].amount else 0) + ActivePrincipal(loans[1..])
  }

  /** Sum of `monthly_repayment` over the active loans. */
  function ActiveRepayments(loans: seq<Loan>): (total: int)
    ensures (forall i :: 0 <= i < |loans| ==> loans[i].status != Active) ==> total == 0
    ensures (forall i :: 0 <= i < |loans| ==> 0 <= loans[i].repayment) ==> 0 <= total
  {
    if loans == [] then 0
    else (if loans[0].status == Active then loans[0].repayment else 0) + ActiveRepayments(loans[1..])
  }

  /** An appended loan adds its amount and its repayment to the active sums
      exactly when it is active. */
  lemma {:induction false} ActiveSumsAppend(loans: seq<Loan>, l: Loan)
    ensures ActivePrincipal(loans + [l])
         == ActivePrincipal(loans) + (if l.status == Active then l.amount else 0)
    ensures ActiveRepayments(loans + [l])
         == ActiveRepayments(loans) + (if l.status == Active then l.repayment else 0)
  {
    if loans == [] {
      assert loans + [l] == [l];
      assert [l][1..] == [];
    } else {
      assert (loans + [l])[1..] == loans[1..] + [l];
      ActiveSumsAppend(loans[1..], l);
    }
  }

  /** The set of loan ids in a table. */
  function Ids(loans: seq<Loan>): set<int>
  {
    set i | 0 <= i < |loans| :: loans[i].id
  }

  /** The table holds at most one loan per id (the primary key). */
  predicate UniqueIds(loans: seq<Loan>)
  {
    forall i, j :: 0 <= i < j < |loans| ==> loans[i].id != loans[j].id
  }

  lemma IdsAppend(loans: seq<Loan>, l: Loan)
    ensures Ids(loans + [l]) == Ids(loans) + {l.id}
  {
    var s := loans + [l];
    forall x | x in Ids(s)
      ensures x in Ids(loans) + {l.id}
    {
      var i :| 0 <= i < |s| && s[i].id == x;
      if i < |loans| {
        assert loans[i] == s[i];
      }
    }
    forall x | x in Ids(loans) + {l.id}
      ensures x in Ids(s)
    {
      if x == l.id {
        assert s[|loans|] == l;
      } else {
        var i :| 0 <= i < |loans| && loans[i].id == x;
        assert s[i] == loans[i];
      }
    }
  }

  lemma IdsCons(loans: seq<Loan>)
    requires loans != []
    ensures Ids(loans) == {loans[0].id} + Ids(loans[1..])
  {
  }

  /** Appending a loan whose id is new keeps the ids unique. */
  lemma UniqueIdsAppend(loans: seq<Loan>, l: Loan)
    requires l.id !in Ids(loans)
    ensures UniqueIds(loans) ==> UniqueIds(loans + [l])
  {
  }
}

=== FILE: results.dfy ===
/** Failure-carrying wrappers used by the views: an optional value (a JSON `null`),
    a value-or-failure, and the failures the views can end in. */
module Results {

  /** A value that may be absent; `None` is Python's `None`. */
  datatype Option<+T> = None | Some(value: T)

  /** Either the value a view computes or the failure it stops with. */
  datatype Result<+T, +E> = Ok(value: T) | Err(error: E)

  /** Why a view returns no decision:
      - CustomerNotFound: the 404 "Customer not found." response;
      - DivisionByZero: `calculate_emi` was asked for a tenure of 0 and the
        decimal division raised, ending the request with a server error. */
  datatype Failure = CustomerNotFound | DivisionByZero
}

=== FILE: underwriting.dfy ===
/** The decision pipeline shared by the two loan views: an affordability
    gate, score tiering with rate thresholds 12 and 16, the approved-limit
    gate, and finalisation. `CheckEligibility` reports a decision;
    `CreateLoan` also returns the database after it. */
module Underwriting {
  import opened Results
  import opened Money
  import opened Records
  import opened Installment
  import opened Scoring

  /** The validated fields of a check-eligibility or create-loan request. */
  datatype LoanRequest = LoanRequest(customerId: int, amount: real, rate: real, tenure: int)

  /** The request serializers accept a rate of at most five digits, two of
      them decimals, so its magnitude stays below 1000. */
  predicate ValidRate(rate: real)
  {
    -1000.0 < rate < 1000.0
  }

  const AffordabilityMessage := "Sum of all current EMIs + new loan EMI exceeds 50% of monthly salary. Loan not approved."
  const CorrectedTo12Message := "Interest rate too low for credit score. Corrected to 12%."
  const CorrectedTo16Message := "Interest rate too low for credit score. Corrected to 16%."
  const ScoreTooLowMessage := "Credit score too low for loan approval."
  const LimitMessage := "Loan amount exceeds approved limit."
  const HighScoreCorrectionMessage := "Interest rate corrected to 12% for high credit score."
  const RateBelow12Message := "Interest rate too low for credit score (must be > 12%)."
  const RateBelow16Message := "Interest rate too low for credit score (must be > 16%)."
  const ApprovedMessage := "Loan approved successfully."
  const NotApprovedMessage := "Loan not approved due to eligibility criteria."

  /** Stage 1: the EMIs of the active loans plus the EMI of the requested loan
      exceed half the monthly salary. */
  predicate Unaffordable(c: Customer, own: seq<Loan>, req: LoanRequest)
    requires req.tenure != 0 && ValidRate(req.rate)
  {
    ActiveRepayments(own) as real + Emi(req.amount, req.rate, req.tenure) > c.salary as real / 2.0
  }

  /** Stage 3: the active principal plus the requested amount exceeds the
      approved limit. */
  predicate ExceedsApprovedLimit(c: Customer, own: seq<Loan>, amount: real)
  {
    ActivePrincipal(own) as real + amount > c.limit as real
  }

  function Smaller(a: real, b: real): real
  {
    if a <= b then a else b
  }

  // ---------------------------------------------------------------------------
  // Check eligibility

  /** `approval`, `corrected_interest_rate` and `message` as the eligibility
      view leaves them. */
  datatype EligibilityState = EligibilityState(approval: bool, correctedRate: Option<real>, message: string)

  /** Stage 2 of the eligibility view. */
  function EligibilityTier(score: int, rate: real): (t: EligibilityState)
    ensures t.approval ==> t.correctedRate.Some?
    ensures t.correctedRate.Some? ==>
      t.correctedRate.value == rate || t.correctedRate.value == 12.0 || t.correctedRate.value == 16.0
    ensures t.approval == TierApproves(score, rate)
    ensures t.approval ==> t.correctedRate == Some(ApprovedRate(score, rate)) && t.message == ""
    ensures !t.approval ==>
      && t.correctedRate == (if score > 30 then Some(12.0) else if score > 10 then Some(16.0) else None)
      && t.message == (if score > 30 then CorrectedTo12Message
                       else if score > 10 then CorrectedTo16Message
                       else ScoreTooLowMessage)
  {
    if score > 50 then
      EligibilityState(true, Some(if rate <= 12.0 then rate else 12.0), "")
    else if 30 < score <= 50 then
      if rate > 12.0 then EligibilityState(true, Some(rate), "")
      else EligibilityState(false, Some(12.0), CorrectedTo12Message)
    else if 10 < score <= 30 then
      if rate > 16.0 then EligibilityState(true, Some(rate), "")
      else EligibilityState(false, Some(16.0), CorrectedTo16Message)
    else
      EligibilityState(false, None, ScoreTooLowMessage)
  }

  /** `corrected_interest_rate if corrected_interest_rate else interest_rate`:
      a corrected rate of 0 is falsy and falls back to the requested rate. */
  function PickRate(corrected: Option<real>, rate: real): (picked: real)
    ensures picked == rate || corrected == Some(picked)
    ensures corrected == None || corrected == Some(0.0) ==> picked == rate
    ensures corrected.Some? && corrected.value != 0.0 ==> picked == corrected.value
  {
    if corrected.Some? && corrected.value != 0.0 then corrected.value else rate
  }

  /** The body of the check-eligibility response. */
  datatype EligibilityResponse = EligibilityResponse(
    customerId: int,
    approval: bool,
    rate: real,
    correctedRate: Option<real>,
    tenure: int,
    installment: real,
    message: string)

  /** `CheckEligibilityView.post` after request validation. `today` supplies
      the calendar year the score uses. */
  function CheckEligibility(s: Store, req: LoanRequest, today: Date): (r: Result<EligibilityResponse, Failure>)
    requires ValidRate(req.rate)
    ensures r == Err(CustomerNotFound) <==> req.customerId !in s.customers
    ensures r == Err(DivisionByZero) <==> req.customerId in s.customers && req.tenure == 0
    ensures r.Ok? ==> req.customerId in s.customers && req.tenure != 0
    ensures r.Ok? ==> r.value.customerId == req.customerId && r.value.rate == req.rate && r.value.tenure == req.tenure
    ensures r.Ok? && Unaffordable(s.customers[req.customerId], LoansOf(s.loans, req.customerId), req) ==>
      r.value == EligibilityResponse(req.customerId, false, req.rate, None, req.tenure, 0.0, AffordabilityMessage)
    ensures r.Ok? && r.value.correctedRate.Some? ==> ValidRate(r.value.correctedRate.value)
    ensures r.Ok? && r.value.approval ==>
      var rate := ApprovedRate(CreditScoreFor(s.customers, s.loans, req.customerId, today.year), req.rate);
      && r.value.correctedRate == Some(rate)
      && r.value.installment == Emi(req.amount, rate, req.tenure)
      && r.value.message == ""
      && !ExceedsApprovedLimit(s.customers[req.customerId], LoansOf(s.loans, req.customerId), req.amount)
    ensures r.Ok? && !Unaffordable(s.customers[req.customerId], LoansOf(s.loans, req.customerId), req)
                  && TierApproves(CreditScoreFor(s.customers, s.loans, req.customerId, today.year), req.rate)
                  && ExceedsApprovedLimit(s.customers[req.customerId], LoansOf(s.loans, req.customerId), req.amount) ==>
      r.value == EligibilityResponse(req.customerId, false, req.rate, None, req.tenure, 0.0, LimitMessage)
    ensures r.Ok? && !Unaffordable(s.customers[req.customerId], LoansOf(s.loans, req.customerId), req)
                  && !TierApproves(CreditScoreFor(s.customers, s.loans, req.customerId, today.year), req.rate) ==>
      var t := EligibilityTier(CreditScoreFor(s.customers, s.loans, req.customerId, today.year), req.rate);
      r.value == EligibilityResponse(req.customerId, false, req.rate, t.correctedRate, req.tenure, 0.0, t.message)
    ensures r.Ok? && !r.value.approval ==> r.value.installment == 0.0
  {
    if req.customerId !in s.customers then Err(CustomerNotFound)
    else if req.tenure == 0 then Err(DivisionByZero)
    else
      var c := s.customers[req.customerId];
      var own := LoansOf(s.loans, req.customerId);
      if Unaffordable(c, own, req) then
        Ok(EligibilityResponse(req.customerId, false, req.rate, None, req.tenure, 0.0, AffordabilityMessage))
      else
        var score := CreditScoreFor(s.customers, s.loans, req.customerId, today.year);
        var tiered := EligibilityTier(score, req.rate);
        var t := if ExceedsApprovedLimit(c, own, req.amount) && tiered.approval
                 then EligibilityState(false, None, LimitMessage)
                 else tiered;
        var installment := if t.approval then Emi(req.amount, PickRate(t.correctedRate, req.rate), req.tenure) else 0.0;
        Ok(EligibilityResponse(req.customerId, t.approval, req.rate, t.correctedRate, req.tenure, installment, t.message))
  }

  // ---------------------------------------------------------------------------
  // Create loan

  /** `loan_approved`, `final_interest_rate` and `message` as the create-loan
      view leaves them. */
  datatype CreateState = CreateState(approved: bool, finalRate: real, message: string)

  /** Stage 2 of the create-loan view. */
  function CreateTier(score: int, rate: real): (t: CreateState)
    ensures t.finalRate == Smaller(rate, 12.0) || t.finalRate == rate
    ensures t.approved ==> t.finalRate == (if score > 50 then Smaller(rate, 12.0) else rate)
    ensures t.approved ==> t.message == "" || t.message == HighScoreCorrectionMessage
    ensures !t.approved ==> t.message != ""
    ensures t.approved == TierApproves(score, rate)
    ensures t.approved ==> t.finalRate == ApprovedRate(score, rate)
    ensures t.approved ==> (t.message == HighScoreCorrectionMessage <==> score > 50 && rate > 12.0)
    ensures !t.approved ==>
      && t.finalRate == rate
      && t.message == (if score > 30 then RateBelow12Message
                       else if score > 10 then RateBelow16Message
                       else ScoreTooLowMessage)
  {
    if score > 50 then
      if rate > 12.0 then CreateState(true, 12.0, HighScoreCorrectionMessage)
      else CreateState(true, rate, "")
    else if 30 < score <= 50 then
      if rate > 12.0 then CreateState(true, rate, "")
      else CreateState(false, rate, RateBelow12Message)
    else if 10 < score <= 30 then
      if rate > 16.0 then CreateState(true, rate, "")
      else CreateState(false, rate, RateBelow16Message)
    else
      CreateState(false, rate, ScoreTooLowMessage)
  }

  /** The body of the create-loan response. */
  datatype CreateLoanResponse = CreateLoanResponse(
    loanId: Option<int>,
    customerId: int,
    approved: bool,
    message: string,
    installment: Option<real>)

  /** A create-loan response together with the database it leaves behind. */
  datatype Created = Created(response: CreateLoanResponse, after: Store)

  /** What an approval at `rate` leaves behind: the new loan appended after
      the stored ones with the stored (truncated) amount, `rate` and its
      installment, no EMI paid yet, starting today and active; the response
      carrying its id and installment; and the customer's debt column set to
      the truncated sum of the debt and the amount. */
  predicate Booked(s: Store, req: LoanRequest, rate: real, today: Date, maturity: Date, newLoanId: int, k: Created)
    requires req.customerId in s.customers && req.tenure != 0 && ValidRate(rate)
  {
    var c := s.customers[req.customerId];
    && |k.after.loans| == |s.loans| + 1
    && k.after.loans[..|s.loans|] == s.loans
    && (var l := k.after.loans[|s.loans|];
       && l.id == newLoanId
       && l.customerId == req.customerId
       && l.amount == Trunc(req.amount)
       && l.tenure == req.tenure
       && l.rate == rate
       && l.repayment == Trunc(Emi(req.amount, rate, req.tenure))
       && l.onTime == 0
       && l.start == today
       && l.end == maturity
       && l.status == Active
       && k.response == CreateLoanResponse(Some(newLoanId), req.customerId, true, k.response.message,
                                           Some(Emi(req.amount, rate, req.tenure))))
    && (k.response.message == ApprovedMessage || k.response.message == HighScoreCorrectionMessage)
    && k.after.customers == s.customers[req.customerId := c.(debt := Trunc(c.debt as real + req.amount))]
  }

  /** The approved branch of the create-loan view: save the loan at the
      decided rate, raise the customer's debt, and answer with the loan id. */
  function Book(s: Store, req: LoanRequest, t: CreateState, today: Date, maturity: Date, newLoanId: int): (k: Created)
    requires req.customerId in s.customers && req.tenure != 0 && ValidRate(t.finalRate)
    requires t.message == "" || t.message == HighScoreCorrectionMessage
    ensures Booked(s, req, t.finalRate, today, maturity, newLoanId, k)
    ensures k.response.message == (if t.message == "" then ApprovedMessage else t.message)
  {
    var c := s.customers[req.customerId];
    var emi := Emi(req.amount, t.finalRate, req.tenure);
    var loan := Loan(newLoanId, req.customerId, Trunc(req.amount), req.tenure, t.finalRate,
                     Trunc(emi), 0, today, maturity, Active);
    var c' := c.(debt := Trunc(c.debt as real + req.amount));
    var message := if t.message == "" then ApprovedMessage else t.message;
    assert (s.loans + [loan])[..|s.loans|] == s.loans;
    Created(CreateLoanResponse(Some(newLoanId), req.customerId, true, message, Some(emi)),
            Store(s.customers[req.customerId := c'], s.loans + [loan]))
  }

  /** `CreateLoanView.post` after request validation. `today` is the start
      date (and gives the score's calendar year), `maturity` is `today` plus
      `tenure` months, and `newLoanId` is the key the database assigns. */
  function CreateLoan(s: Store, req: LoanRequest, today: Date, maturity: Date, newLoanId: int): (r: Result<Created, Failure>)
    requires ValidRate(req.rate)
    ensures r == Err(CustomerNotFound) <==> req.customerId !in s.customers
    ensures r == Err(DivisionByZero) <==> req.customerId in s.customers && req.tenure == 0
    ensures r.Ok? ==> req.customerId in s.customers && req.tenure != 0
    ensures r.Ok? ==> r.value.response.customerId == req.customerId
    ensures r.Ok? && Unaffordable(s.customers[req.customerId], LoansOf(s.loans, req.customerId), req) ==>
      r.value == Created(CreateLoanResponse(None, req.customerId, false, AffordabilityMessage, None), s)
    ensures r.Ok? && !r.value.response.approved ==>
      && r.value.after == s
      && r.value.response.loanId.None?
      && r.value.response.installment.None?
      && r.value.response.message != ""
      && r.value.response.message != NotApprovedMessage
    ensures r.Ok? && r.value.response.approved ==>
      var score := CreditScoreFor(s.customers, s.loans, req.customerId, today.year);
      && !ExceedsApprovedLimit(s.customers[req.customerId], LoansOf(s.loans, req.customerId), req.amount)
      && Booked(s, req, ApprovedRate(score, req.rate), today, maturity, newLoanId, r.value)
      && (r.value.response.message == HighScoreCorrectionMessage <==> score > 50 && req.rate > 12.0)
    ensures r.Ok? && !Unaffordable(s.customers[req.customerId], LoansOf(s.loans, req.customerId), req)
                  && TierApproves(CreditScoreFor(s.customers, s.loans, req.customerId, today.year), req.rate)
                  && ExceedsApprovedLimit(s.customers[req.customerId], LoansOf(s.loans, req.customerId), req.amount) ==>
      r.value == Created(CreateLoanResponse(None, req.customerId, false, LimitMessage, None), s)
    ensures r.Ok? && !Unaffordable(s.customers[req.customerId], LoansOf(s.loans, req.customerId), req)
                  && !TierApproves(CreditScoreFor(s.customers, s.loans, req.customerId, today.year), req.rate) ==>
      var t := CreateTier(CreditScoreFor(s.customers, s.loans, req.customerId, today.year), req.rate);
      r.value == Created(CreateLoanResponse(None, req.customerId, false, t.message, None), s)
  {
    if req.customerId !in s.customers then Err(CustomerNotFound)
    else if req.tenure == 0 then Err(DivisionByZero)
    else
      var c := s.customers[req.customerId];
      var own := LoansOf(s.loans, req.customerId);
      if Unaffordable(c, own, req) then
        Ok(Created(CreateLoanResponse(None, req.customerId, false, AffordabilityMessage, None), s))
      else
        var score := CreditScoreFor(s.customers, s.loans, req.customerId, today.year);
        var tiered := CreateTier(score, req.rate);
        var t := if ExceedsApprovedLimit(c, own, req.amount) && tiered.approved
                 then CreateState(false, tiered.finalRate, LimitMessage)
                 else tiered;
        if t.approved then
          Ok(Book(s, req, t, today, maturity, newLoanId))
        else
          var message := if t.message == "" then NotApprovedMessage else t.message;
          Ok(Created(CreateLoanResponse(None, req.customerId, false, message, None), s))
  }

  // ---------------------------------------------------------------------------
  // The verdict both views share

  /** Whether a score tier accepts the requested rate: above 50 always,
      in (30, 50] only above 12%, in (10, 30] only above 16%, never at 10 or below. */
  function TierApproves(score: int, rate: real): bool
  {
    if score > 50 then true
    else if score > 30 then rate > 12.0
    else if score > 10 then rate > 16.0
    else false
  }

  /** A higher score or a higher requested rate never turns a tier's
      approval into a refusal. */
  lemma TierApprovesMonotone(score: int, rate: real, score': int, rate': real)
    requires score <= score' && rate <= rate'
    ensures TierApproves(score, rate) ==> TierApproves(score', rate')
  {
  }

  /** The rate an approval carries: above a score of 50 the requested rate
      capped at 12%, otherwise the requested rate unchanged. */
  function ApprovedRate(score: int, rate: real): (r: real)
    ensures r == rate || r == 12.0
    ensures r <= rate || score <= 50
    ensures score > 50 ==> r <= 12.0
    ensures score <= 50 || rate <= 12.0 ==> r == rate
  {
    if score > 50 then Smaller(rate, 12.0) else rate
  }

  /** The approval verdict as a single rule: refuse what is unaffordable,
      approve what the tier accepts unless the limit is exceeded. */
  function Verdict(s: Store, req: LoanRequest, today: Date): (v: Result<bool, Failure>)
    requires ValidRate(req.rate)
    ensures v.Err? <==> req.customerId !in s.customers || req.tenure == 0
    ensures v == Ok(true) <==>
      && req.customerId in s.customers && req.tenure != 0
      && !Unaffordable(s.customers[req.customerId], LoansOf(s.loans, req.customerId), req)
      && TierApproves(CreditScoreFor(s.customers, s.loans, req.customerId, today.year), req.rate)
      && !ExceedsApprovedLimit(s.customers[req.customerId], LoansOf(s.loans, req.customerId), req.amount)
  {
    if req.customerId !in s.customers then Err(CustomerNotFound)
    else if req.tenure == 0 then Err(DivisionByZero)
    else
      var c := s.customers[req.customerId];
      var own := LoansOf(s.loans, req.customerId);
      if Unaffordable(c, own, req) then Ok(false)
      else Ok(TierApproves(CreditScore(c, own, today.year), req.rate) && !ExceedsApprovedLimit(c, own, req.amount))
  }

  lemma EligibilityFollowsVerdict(s: Store, req: LoanRequest, today: Date)
    requires ValidRate(req.rate)
    ensures CheckEligibility(s, req, today).Err? == Verdict(s, req, today).Err?
    ensures CheckEligibility(s, req, today).Err? ==>
      CheckEligibility(s, req, today).error == Verdict(s, req, today).error
    ensures CheckEligibility(s, req, today).Ok? ==>
      CheckEligibility(s, req, today).value.approval == Verdict(s, req, today).value
  {
  }

  lemma CreateFollowsVerdict(s: Store, req: LoanRequest, today: Date, maturity: Date, newLoanId: int)
    requires ValidRate(req.rate)
    ensures CreateLoan(s, req, today, maturity, newLoanId).Err? == Verdict(s, req, today).Err?
    ensures CreateLoan(s, req, today, maturity, newLoanId).Err? ==>
      CreateLoan(s, req, today, maturity, newLoanId).error == Verdict(s, req, today).error
    ensures CreateLoan(s, req, today, maturity, newLoanId).Ok? ==>
      CreateLoan(s, req, today, maturity, newLoanId).value.response.approved == Verdict(s, req, today).value
  {
  }

  /** The two views fail alike and, when they answer, give the same verdict. */
  lemma ViewsAgree(s: Store, req: LoanRequest, today: Date, maturity: Date, newLoanId: int)
    requires ValidRate(req.rate)
    ensures var e := CheckEligibility(s, req, today);
            var k := CreateLoan(s, req, today, maturity, newLoanId);
            && (e.Err? <==> k.Err?)
            && (e.Err? ==> e.error == k.error)
            && (e.Ok? ==> e.value.approval == k.value.response.approved)
  {
    EligibilityFollowsVerdict(s, req, today);
    CreateFollowsVerdict(s, req, today, maturity, newLoanId);
  }

  /** Above a score of 50 an approval uses at most 12%: the requested rate
      when it is at most 12, otherwise 12. */
  lemma HighScoreCapsRate(s: Store, req: LoanRequest, today: Date, maturity: Date, newLoanId: int)
    requires ValidRate(req.rate)
    requires CreditScoreFor(s.customers, s.loans, req.customerId, today.year) > 50
    ensures var e := CheckEligibility(s, req, today);
            e.Ok? && e.value.approval ==> e.value.correctedRate == Some(Smaller(req.rate, 12.0))
    ensures var k := CreateLoan(s, req, today, maturity, newLoanId);
            k.Ok? && k.value.response.approved ==>
              k.value.after.loans[|s.loans|].rate == Smaller(req.rate, 12.0)
  {
  }

  /** With a score in (30, 50] and a rate of at most 12% (or a score in
      (10, 30] and a rate of at most 16%), an affordable request is refused by
      both views; the eligibility view still reports the corrected rate and
      the create-loan view names the threshold. */
  lemma MidTierRateTooLow(s: Store, req: LoanRequest, today: Date, maturity: Date, newLoanId: int)
    requires ValidRate(req.rate) && req.customerId in s.customers && req.tenure != 0
    requires !Unaffordable(s.customers[req.customerId], LoansOf(s.loans, req.customerId), req)
    requires var score := CreditScoreFor(s.customers, s.loans, req.customerId, today.year);
             (30 < score <= 50 && req.rate <= 12.0) || (10 < score <= 30 && req.rate <= 16.0)
    ensures var score := CreditScoreFor(s.customers, s.loans, req.customerId, today.year);
            var e := CheckEligibility(s, req, today);
            var k := CreateLoan(s, req, today, maturity, newLoanId);
            && e.Ok? && !e.value.approval
            && e.value.correctedRate == Some(if score > 30 then 12.0 else 16.0)
            && e.value.message == (if score > 30 then CorrectedTo12Message else CorrectedTo16Message)
            && k.Ok? && !k.value.response.approved
            && k.value.response.message == (if score > 30 then RateBelow12Message else RateBelow16Message)
  {
  }

  /** A customer without loans is never granted a loan: the request is
      either unaffordable or scores 0. */
  lemma NoHistoryIsRefused(s: Store, req: LoanRequest, today: Date, maturity: Date, newLoanId: int)
    requires ValidRate(req.rate) && req.customerId in s.customers && req.tenure != 0
    requires LoansOf(s.loans, req.customerId) == []
    ensures var k := CreateLoan(s, req, today, maturity, newLoanId);
            && k.Ok? && !k.value.response.approved
            && (k.value.response.message == AffordabilityMessage || k.value.response.message == ScoreTooLowMessage)
  {
    NoHistoryScoresZero(s.customers[req.customerId], today.year);
  }

  /** A booking (see `Booked`, which `CreateLoan` guarantees for every
      approval) appends one active loan of the customer with the stored
      amount and raises the debt. It raises the customer's active principal
      by that stored amount, within the approved limit when the limit gate
      passed, and the active repayments by its installment; for non-negative
      debt and amount the debt grows by the same stored amount, which is the
      requested amount itself when that is whole. */
  lemma ApprovalBooksTheLoan(s: Store, req: LoanRequest, k: Created)
    requires req.customerId in s.customers
    requires |k.after.loans| == |s.loans| + 1 && k.after.loans[..|s.loans|] == s.loans
    requires var l := k.after.loans[|s.loans|];
             l.customerId == req.customerId && l.amount == Trunc(req.amount) && l.status == Active
    requires var c := s.customers[req.customerId];
             k.after.customers == s.customers[req.customerId := c.(debt := Trunc(c.debt as real + req.amount))]
    requires !ExceedsApprovedLimit(s.customers[req.customerId], LoansOf(s.loans, req.customerId), req.amount)
    ensures var cid := req.customerId;
            var c := s.customers[cid];
            var c' := k.after.customers[cid];
            && ActivePrincipal(LoansOf(k.after.loans, cid))
               == ActivePrincipal(LoansOf(s.loans, cid)) + Trunc(req.amount)
            && ActiveRepayments(LoansOf(k.after.loans, cid))
               == ActiveRepayments(LoansOf(s.loans, cid)) + k.after.loans[|s.loans|].repayment
            && ActivePrincipal(LoansOf(k.after.loans, cid)) <= c.limit
            && (0 <= c.debt && 0.0 <= req.amount ==> c'.debt == c.debt + Trunc(req.amount))
            && (req.amount == req.amount.Floor as real ==> c'.debt == c.debt + req.amount.Floor)
  {
    var cid := req.customerId;
    var l := k.after.loans[|s.loans|];
    assert k.after.loans == s.loans + [l];
    LoansOfAppend(s.loans, l, cid);
    ActiveSumsAppend(LoansOf(s.loans, cid), l);
  }

  /** With a fresh id for the new loan, create-loan keeps the loan table's
      primary key unique. */
  lemma CreateLoanKeepsIdsUnique(s: Store, req: LoanRequest, today: Date, maturity: Date, newLoanId: int)
    requires ValidRate(req.rate)
    requires UniqueIds(s.loans) && newLoanId !in Ids(s.loans)
    ensures var r := CreateLoan(s, req, today, maturity, newLoanId);
            r.Ok? ==> UniqueIds(r.value.after.loans)
  {
    var r := CreateLoan(s, req, today, maturity, newLoanId);
    if r.Ok? && r.value.response.approved {
      var l := r.value.after.loans[|s.loans|];
      assert r.value.after.loans == s.loans + [l];
      UniqueIdsAppend(s.loans, l);
    }
  }
}
